=== FILE: README.md ===
# pandas-utilities: multi-way comparison and coalescing of columns

This project models the two utilities of the `pdutils` package:

- `eq_multiple` and `equals_multiple` compare several columns elementwise. Each has a null-handling policy:
  - `any`: missing values are ignored.
  - `all`: a position also holds when every value there is missing.
  - `none`: a missing value never equals anything.
- `merge_non_na` coalesces several columns left to right. It starts from the first column and fills each missing position from the next column. It stops when nothing is missing or the columns run out. In the second case a `remaining_na` policy decides whether to raise, warn or return.

The earlier copies of these entry points are modelled too. They are `eq_series`, `equal_series` and `merge_non_na_values` in `pdutils/__init__.py`, and `merge_non_na_values` in `pdutils/merge.py`.

Modules:

- `Cells` (`cells.dfy`): a cell is the missing marker or a value. It also holds the errors the utilities raise, each tied to its Python exception class, and a `Result` type.
- `Eq` (`eq.dfy`): the parts of `pdutils/_eq.py`, which are the input normalisation loop, the pair enumerations of `itertools.permutations` and `itertools.pairwise`, and the `check &= ...` fold. It also holds reference definitions of what each policy means at one row, and the lemmas that connect the two.
- `Merge` (`merge.dfy`): `pdutils/_merge.py`.
  - Columns are maps from row labels to cells. A label a column lacks reads as missing, which is how `pd.concat` aligns columns on the union of their labels.
  - The fill loop is connected to a reference definition: the first non-missing value in column order.
- `Legacy` (`legacy.dfy`) and `LegacyMerge` (`legacy_merge.dfy`): the earlier entry points. `eq_series` and `equal_series` are proved equal to the current comparison on non-empty lists of equally long Series. The two merges are proved equal to `merge_non_na` on non-empty lists of Series and on frames with columns. They part in two places: `eq_series([])` raises IndexError where `eq_multiple([])` raises ValueError, and on a frame without columns the old merges raise IndexError where `merge_non_na` raises ValueError.

Errors are values: each function returns `Ok(...)` or `Err(reason)`. The reason names the exception the Python code raises: `EmptyInput`, `LengthMismatch`, `UnknownPolicy` and `NullsRemain` are ValueError; `UnsupportedElement` and `NoLength` are TypeError; `MissingColumn` is IndexError; `MissingAttribute` is AttributeError. `OutsideModel` marks inputs whose outcome depends on pandas label alignment, which the comparison model does not describe. The UserWarning of `remaining_na='warn'` is the `warned` flag of the result.

## Model

| member | source | states |
|---|---|---|
| Cells.AllTrue | pdutils/_eq.py:129 | `pd.Series([True for _ in range(n)])`: n entries, every one True. This is the starting `check`, and also the result for a non-list input (pdutils/_eq.py:112, pdutils/_merge.py:87) |
| Eq.ParsePolicy | pdutils/_eq.py:130-141 | Exactly the keywords 'any', 'all' and 'none' are recognised, each selecting its own policy |
| Eq.MoveToEnd | pdutils/_eq.py:124 | `series.append(pd.Series(series.pop(i)))` keeps the number of elements |
| Eq.MoveToEndShape | pdutils/_eq.py:124 | After the move, the elements before `i` stay in place, the ones after it shift down by one, and the converted element is last |
| Eq.MoveToEndKeepsElements | pdutils/_eq.py:124 | `series.append(pd.Series(series.pop(i)))` keeps the elements before `i` and, once array-likes are read as Series, the same elements |
| Eq.Normalise | pdutils/_eq.py:117-127 | The loop either fails with the length error, the len() TypeError or the kind TypeError, or keeps every element: the same number of elements, the visited prefix unchanged, and the same multiset once array-likes are read as Series |
| Eq.PermutationPairs | pdutils/_eq.py:131 | `permutations(series, 2)` enumerates exactly the ordered pairs of distinct positions |
| Eq.PairwisePairs | pdutils/_eq.py:134 | `pairwise(series)` enumerates exactly the pairs of adjacent positions |
| Eq.Pairs | pdutils/_eq.py:130-137 | 'any' enumerates every ordered pair of distinct positions (`permutations`); 'all' and 'none' enumerate the adjacent pairs (`pairwise`) |
| Eq.Match | pdutils/_eq.py:131-138 | The three `check &= ...` expressions at one position. 'any': the values are equal or either one is missing. 'all': they are equal, or both are missing. 'none': both are present and equal |
| Eq.Conjoin | pdutils/_eq.py:129-138 | After the `check &= ...` loop, a position is True exactly when it was True before and every enumerated pair matches there under the policy |
| Eq.AnyCharacterisation | pdutils/_eq.py:130-132 | Under `na='any'` a position is True exactly when all values present in that row are equal, so missing values are ignored |
| Eq.AllCharacterisation | pdutils/_eq.py:133-135 | Under `na='all'` a position is True exactly when the whole row is missing, or nothing in it is missing and all values are equal |
| Eq.NoneCharacterisation | pdutils/_eq.py:136-138 | Under `na='none'` a position is True exactly when there is a single column, or nothing in the row is missing and all values are equal |
| Eq.ChainEqualsFirst | pdutils/_eq.py:134-135 | When each adjacent pair in a row agrees, every value equals the first |
| Eq.CompareMeetsReference | pdutils/_eq.py:24-31 | Each policy computes its documented meaning at every position |
| Eq.CompareDependsOnlyOnMembers | pdutils/_eq.py:129-138 | The comparison depends only on which columns occur and how many, not on their order or repetition pattern |
| Eq.CompareOrderIndependent | pdutils/_eq.py:129-138 | Once the list is normalised, any permutation of its columns gives the same comparison under every policy |
| Eq.PoliciesAgreeWithoutNulls | pdutils/_eq.py:130-138 | Without missing values the three policies give the same result |
| Eq.Compare | pdutils/_eq.py:129-138 | One entry per position. A position is True exactly when every pair the policy enumerates matches there |
| Eq.PairMask | pdutils/_eq.py:131-138 | One pair of the normalised list, evaluated as `pd.Series.eq(a, b)` and then the `isna` terms. A non-Series `self` raises AttributeError. An array-like `other` of another length raises ValueError. An array-like `other` of the right length raises AttributeError under 'any' and 'all', from its missing `isna`. Success needs a Series `self` and an `other` of length `n`, and yields the policy's match at every position |
| Eq.CheckPairs | pdutils/_eq.py:129-138 | The pair loop succeeds exactly when every enumerated pair does. Otherwise it raises the exception of the first pair that fails |
| Eq.CheckPairsOnSeries | pdutils/_eq.py:129-138 | On Series of length `n` the pair loop succeeds with the `check &=` fold over their data |
| Eq.NormaliseEndsWithSeries | pdutils/_eq.py:118-124 | The last position is always visited, so after the loop it holds a Series of length `n` |
| Eq.PassingPairsMeanSeries | pdutils/_eq.py:129-138 | If every pair succeeds, every element of the normalised list is a Series of length `n` |
| Eq.NormalisedComparison | pdutils/_eq.py:118-138 | A normalised list of Series compares like the original elements in their original order, and those elements are all array-like of length `n` |
| Eq.EqList | pdutils/_eq.py:114-142 | An empty list is refused with ValueError. A success means the policy keyword was recognised and every element was array-like of the first one's length. It then equals the comparison of the elements' data in the order given |
| Eq.EqMultiple | pdutils/_eq.py:108-142 | The policy defaults to 'any'. A non-list input gives all-True of its length, or a TypeError when it has none. An empty list or a frame without columns raises ValueError. A success has the first column's length and implies a recognised policy. A list succeeds only when every element is array-like of that length, and then gives the comparison of their data in order |
| Eq.EqualsMultiple | pdutils/_eq.py:232 | Succeeds exactly when `eq_multiple` does, fails with its error, and is True exactly when every position of `eq_multiple` is True |
| Eq.NormaliseSeriesPrefix | pdutils/_eq.py:118-122 | Equally long Series are passed over by the loop unchanged |
| Eq.NormaliseSeries | pdutils/_eq.py:118-122 | A list of equally long Series comes out of the loop unchanged |
| Eq.EqMultipleOnSeries | pdutils/_eq.py:108-142 | A list of Series and the frame with the same columns give the same result: ValueError on unequal lengths, then ValueError on an unknown policy, else the comparison of the columns |
| Eq.EqMultipleSeriesPermutation | pdutils/_eq.py:108-142 | On a list of Series, any reordering of the list gives the same result, errors included, as tests/test_pandas_utils.py:51-57 expects |
| Eq.SingleElementAllTrue | pdutils/_eq.py:17 | A single element gives all-True under every recognised policy, and an unknown policy is still refused |
| Eq.LengthCheckedBeforeKind | pdutils/_eq.py:118-127 | After a run of equally long Series, the first unsupported element raises TypeError when its length is right and ValueError when it is not |
| Eq.SkippedElementIsNotChecked | pdutils/_eq.py:118-124 | The element after a converted one is never visited |
| Eq.DictAfterListEscapesKindCheck | pdutils/_eq.py:118-132 | A dict of the right length after a list escapes the kind check; the comparison then fails with AttributeError instead of the documented TypeError |
| Eq.TwoListsRaiseAttributeError | pdutils/_eq.py:118-132 | Two lists of equal length, such as `[[1, 2], [1, 2]]`, raise AttributeError under every valid policy: the second list is never converted and becomes `self` of the first pair |
| Eq.FirstPairIsZeroOne | pdutils/_eq.py:131-137 | Both `permutations` and `pairwise` start with the pair of the first two positions |
| Eq.ShortListAfterListRaisesValueError | pdutils/_eq.py:118-132 | A list of the wrong length right after a converted one escapes the length check. `pd.Series.eq` then refuses it against the first Series with ValueError |
| Eq.SeriesFirstRaises | pdutils/_eq.py:118-132 | `[series, list, list]` of equal lengths raises AttributeError under every valid policy: the second list is never converted and becomes `self` of a pair |
| Eq.ListFirstCompares | pdutils/_eq.py:118-132 | `[list, series, list]` of equal lengths compares the three columns in that order under every valid policy |
| Eq.MixedListOrderMatters | pdutils/_eq.py:118-132 | For mixed lists the order matters: two orderings of the same elements, one raising and one succeeding |
| Eq.ConversionKeepsShape | pdutils/_eq.py:123-124 | Moving a converted element to the end keeps every later array-like followed by a Series |
| Eq.NormaliseNoAdjacent | pdutils/_eq.py:118-124 | When no two non-Series elements are adjacent, the loop succeeds and converts every element |
| Eq.EqMultipleMixed | pdutils/_eq.py:118-138 | When no two non-Series elements are adjacent, the result is the comparison of the elements' data in their original order |
| Eq.EqualsMultipleOnSeries | pdutils/_eq.py:161-232 | On equally long Series, `equals_multiple` is True exactly when every row meets the policy's documented meaning |
| Eq.NormaliseEach | pdutils/_eq.py:118-127 | The loop as intended: it succeeds exactly when every element passes the length and kind checks, and then yields the elements converted in place. Otherwise it fails with the error of the first element that does not pass |
| Eq.EqListIntended | pdutils/_eq.py:114-142 | With the intended loop, a list is accepted exactly when all elements are array-like of the first one's length. The result is the comparison of their data in order |
| Eq.IntendedRefusesDictAfterList | pdutils/_eq.py:123-127 | With the intended loop, the dict after a list raises the documented TypeError |
| Eq.IntendedAgreesWithoutAdjacentConversions | pdutils/_eq.py:118-124 | Where no two non-Series elements are adjacent, the loop as written and as intended agree |
| Merge.ToColumn | pdutils/_merge.py:84 | A Series or dict keeps its labels; an array-like is labelled 0 to len-1 with its cells in order |
| Merge.At | pdutils/_merge.py:84 | Once `pd.concat` aligns the columns on the union of their labels, a label a column lacks reads as missing, and a label it carries reads as its own cell |
| Merge.Concat | pdutils/_merge.py:84 | `pd.concat` keeps the columns in order, and its row labels are exactly those some column carries |
| Merge.KeysOf | pdutils/_merge.py:84 | The concatenated frame's labels are the union of the columns' labels |
| Merge.FirstNonNullIsFirst | pdutils/_merge.py:10-19 | The reference value at a label is missing exactly when every column misses it; otherwise it comes from the earliest column that has a value there |
| Merge.FirstNonNullAppend | pdutils/_merge.py:93-113 | The first value over two groups of columns is the first group's if it has one, else the second group's |
| Merge.FillStep | pdutils/_merge.py:112 | `where(~na, column)` never overwrites a value, fills each missing position from the column, and never adds a missing position |
| Merge.CoalesceOneMore | pdutils/_merge.py:111-113 | Filling from the next column extends the coalesced prefix by that column |
| Merge.CompletePrefixIsFinal | pdutils/_merge.py:97 | Once a prefix of the columns leaves nothing missing, later columns change nothing |
| Merge.FillFrom | pdutils/_merge.py:93-115 | The loop stops after the first prefix of the columns that leaves nothing missing, or after all of them. Its value is the coalesce of that prefix, which equals the coalesce of all the columns |
| Merge.Run | pdutils/_merge.py:93-115 | From the first column, the loop yields the coalesce of all columns. It stops early exactly when nothing remains missing |
| Merge.Settle | pdutils/_merge.py:97-109 | The policy is read only when the columns ran out with values missing. 'warn' and 'ignore' return the loop's values, and only 'warn' warns. 'raise' raises ValueError, and any other keyword raises ValueError for an unknown policy |
| Merge.MergeTable | pdutils/_merge.py:89-115 | A frame without columns raises ValueError. Without remaining missing values the result is the coalesce. Otherwise the policy decides: 'raise' raises, 'warn' returns with a warning, 'ignore' returns, and any other keyword raises ValueError |
| Merge.MergeNonNa | pdutils/_merge.py:83-115 | The policy defaults to 'raise'. A non-frame input gives all-True of its length, or TypeError without one. An empty list raises ValueError. A list succeeds only with the coalesce of its aligned columns over the union of their labels, and a frame only with its coalesce |
| Merge.DefaultPolicyRaises | pdutils/_merge.py:8 | Without a keyword the policy is 'raise', so a frame that leaves a value missing raises ValueError |
| Merge.FirstNonNullWins | pdutils/_merge.py:10-19 | Every label of the merged result carries the value of the earliest column that has one there, and is missing only when all columns miss it |
| Merge.FilledPositionsPersist | pdutils/_merge.py:112 | Along the loop a filled label keeps its value, and the missing labels only shrink |
| Merge.LaterColumnsNotConsulted | pdutils/_merge.py:97 | When the first columns leave nothing missing, the columns after them and the policy do not matter |
| Merge.AgreeingColumnsCommute | pdutils/_merge.py:93-115 | When no two columns disagree at a label, the merge depends only on which columns are given |
| Merge.MergeNonNaOrderIndependent | pdutils/_merge.py:83-115 | Reordering or repeating pieces that never disagree leaves the list merge unchanged |
| Merge.SingleSeries | pdutils/_merge.py:93-106 | A single Series comes back unchanged when it has no missing value. Otherwise the remaining-null policy applies to it |
| Legacy.EqSeries | pdutils/__init__.py:7-34 | An empty list raises IndexError before the policy is read, and an unknown policy raises ValueError. A success has the first column's length. One column gives all-True |
| Legacy.EqualSeries | pdutils/__init__.py:36-37 | Succeeds exactly when `eq_series` does, fails with its error, and is True exactly when every position is |
| Legacy.EqSeriesAgreesWithEqMultiple | pdutils/__init__.py:7-37 | On equally long Series, `eq_series` and `equal_series` agree with `eq_multiple` and `equals_multiple` |
| Legacy.EmptyInputsRaiseDifferently | pdutils/__init__.py:7-47 | Where the old and current versions differ. On an empty list, `series[0]` raises IndexError where `eq_multiple` raises ValueError (pdutils/_eq.py:114-115). On a frame without columns, `iloc[:, 0]` raises IndexError where `merge_non_na` raises ValueError (pdutils/_merge.py:90-91) |
| Legacy.TableOf | pdutils/__init__.py:41-47 | An empty list raises ValueError. A list holding a non-Series raises TypeError. A non-frame object raises AttributeError, and a frame without columns IndexError. A success has at least one column |
| Legacy.SettleByMatch | pdutils/__init__.py:51-62 | The `match` dispatch on `remaining_na` behaves exactly like the if/elif dispatch of the current version |
| Legacy.MergeNonNaValues | pdutils/__init__.py:39-69 | Input errors pass through. A success is the coalesce of the columns. With remaining missing values it succeeds exactly under 'warn' or 'ignore' and warns exactly under 'warn'. Without them it returns the coalesce |
| Legacy.MergeNonNaValuesAgreesWithMergeNonNa | pdutils/__init__.py:39-69 | On a non-empty list of Series or a frame with columns, the old and the current merge agree |
| LegacyMerge.MergeNonNaValues | pdutils/merge.py:24-50 | Input errors pass through. A success is the coalesce. The remaining-null policy applies case by case, as in the current version |
| LegacyMerge.SameAsInitVersion | pdutils/merge.py:24-50 | The two earlier copies of `merge_non_na_values` agree on every input |
| LegacyMerge.AgreesWithMergeNonNa | pdutils/merge.py:24-50 | On a non-empty list of Series or a frame with columns, this copy agrees with `merge_non_na` |

## Left out

- Label alignment in comparisons is not modelled. `pd.Series.eq` aligns two Series by label. The comparison model treats columns positionally, which matches Series that share the default index. These cases give `OutsideModel`:
  - a pair of Series of different lengths;
  - a mask whose length differs from the first element's;
  - a dict or other object as the `other` of `pd.Series.eq`;
  - `eq_series` on Series of different lengths.
- Non-default row labels are not modelled: the model compares Series that share a non-default index, and a DataFrame with labelled rows, positionally. In the source, the in-place `check &= mask` aligns the mask with `check`, whose labels are 0 to n-1, and keeps those labels. With two or more elements, entry k of the result compares the rows labelled k, and is False where some element has no row labelled k. So integer labels that overlap 0 to n-1, such as [2, 1, 0], are compared by label, and labels outside that range give False. The model compares by position.
- Values are compared with their own equality. dtypes, floating-point NaN details and type coercion are not modelled; NaN and None are both the missing cell.
- The order of row labels in the merged result is not modelled: the result is a map. Duplicate labels are not modelled either.
- Mutation is not modelled. `eq_multiple` changes the caller's list in place, and `where(..., inplace=True)` may change the frame's first column. Only the returned value is modelled; the rearranged list is the result of `Eq.Normalise`.
- Warnings and exception messages are not modelled. The UserWarning is the `warned` flag; message texts are not modelled.
- `DataFrame.iteritems`, which newer pandas versions removed, is taken to yield the columns in order.
- In `merge_non_na`, list elements other than Series, ndarray/list/tuple and dict (for example nested frames or scalars) are left out.
- Legacy.EqSeries: only lists of Series are modelled. `eq_series` does no normalisation, so a list or array inside the list behaves as it does in `pd.Series.eq`. That is not modelled here. For example, under 'none', `[series, list]` returns a result and `[list, series]` raises AttributeError.
- Eq.EqMultiple: it models the loop as written, including the skipped element; the corrected loop is `Eq.NormaliseEach`.

## Findings

| source | as written | input that shows it | evidently intended | confidence | as-written member | corrected member |
|---|---|---|---|---|---|---|
| pdutils/_eq.py:118-124 | `series.pop(i)` and `series.append(...)` run while `enumerate(series)` is iterating. The element that moves into position `i` is never visited, so it escapes the length and kind checks | The simplest case is `eq_multiple([[1, 2], [1, 2]])`. The second list is never converted and becomes `self` of the first pair, so the call raises AttributeError (`Eq.TwoListsRaiseAttributeError`). With `eq_multiple([[1, 2], {'a': 1, 'b': 2}])`, the dict is never checked. Instead of the documented TypeError, `pd.Series.eq` is later called with the dict as `self` and raises AttributeError. Because of the skip, the result of a mixed list also depends on its order: `[series, list, list]` raises AttributeError where `[list, series, list]` compares normally (`Eq.MixedListOrderMatters`). Likewise a list of the wrong length in that place escapes the length check and reaches `pd.Series.eq` (`Eq.ShortListAfterListRaisesValueError`) | Every element is visited once and passes the length check and then the kind check; an array-like is converted in place | medium, not executed | Eq.DictAfterListEscapesKindCheck | Eq.NormaliseEach |

=== FILE: cells.dfy ===
/** Values shared by the comparison and the coalescing utilities: a cell that
    is either the library's missing marker or a value, the exceptions the
    utilities raise, and a result type that carries either a value or one of
    those exceptions. */
module Cells {

  /** One entry of a column: the missing marker (NaN/None in the library) or
      a value. Values are compared with their own equality; floating-point
      details are not part of the model. */
  datatype Cell<T> = Null | Val(v: T)

  datatype Option<T> = None | Some(value: T)

  /** The exception classes a caller can observe. */
  datatype ExceptionClass = ValueError | TypeError | IndexError | AttributeError | Unspecified

  /** Why a call failed. Each reason belongs to one exception class. */
  datatype Error =
    | EmptyInput          // no columns at all
    | LengthMismatch      // an element's length differs from the first one's
    | UnsupportedElement  // an element is not one of the accepted kinds
    | NoLength            // len() was applied to an object without a length
    | UnknownPolicy       // the null-handling keyword is not recognised
    | NullsRemain         // coalescing ran out of columns under 'raise'
    | MissingColumn       // the first column was asked for and there is none
    | MissingAttribute    // a library method was called on an object that lacks it
    | OutsideModel        // the outcome depends on label alignment, which is not modelled
  {
    function Class(): ExceptionClass {
      match this
      case EmptyInput => ValueError
      case LengthMismatch => ValueError
      case UnsupportedElement => TypeError
      case NoLength => TypeError
      case UnknownPolicy => ValueError
      case NullsRemain => ValueError
      case MissingColumn => IndexError
      case MissingAttribute => AttributeError
      case OutsideModel => Unspecified
    }
  }

  datatype Result<R> = Ok(value: R) | Err(error: Error)

  /** The boolean column `[True for _ in range(n)]`. */
  function AllTrue(n: nat): (r: seq<bool>)
    ensures |r| == n
    ensures forall k :: 0 <= k < n ==> r[k]
  {
    seq(n, _ => true)
  }
}

=== FILE: eq.dfy ===
/** Multi-way elementwise equality of columns (`eq_multiple`,
    `equals_multiple`): input normalisation, the three null-handling
    policies, and the properties that characterise them. Columns are
    compared positionally. */
module Eq {
  import opened Cells

  /** The policies selected by the keyword `na`. */
  datatype Policy = AnyNa | AllNa | NoNa

  /** Reads the keyword `na`; `None` for any other string. */
  function ParsePolicy(na: string): (r: Option<Policy>)
    ensures r.Some? <==> na == "any" || na == "all" || na == "none"
    ensures r == Some(AnyNa) <==> na == "any"
    ensures r == Some(AllNa) <==> na == "all"
    ensures r == Some(NoNa) <==> na == "none"
  {
    if na == "any" then Some(AnyNa)
    else if na == "all" then Some(AllNa)
    else if na == "none" then Some(NoNa)
    else None
  }

  /** One element of the input list. */
  datatype Elem<T> =
    | Series(cells: seq<Cell<T>>)
    | ArrayLike(cells: seq<Cell<T>>)   // an ndarray, list or tuple
    | Other(size: Option<nat>)         // a dict or any other object; `size` is its len(), if it has one

  /** What a caller may pass as `series`. */
  datatype Input<T> =
    | List(elems: seq<Elem<T>>)
    | Frame(columns: seq<seq<Cell<T>>>)
    | NotAList(size: Option<nat>)      // any other object (a single Series, a tuple, ...)

  function Length<T(==)>(e: Elem<T>): Option<nat> {
    match e
    case Series(c) => Some(|c|)
    case ArrayLike(c) => Some(|c|)
    case Other(size) => size
  }

  /** The element as it is after `pd.Series(...)` conversion. */
  function Converted<T(==)>(e: Elem<T>): Elem<T> {
    match e
    case ArrayLike(c) => Series(c)
    case _ => e
  }

  function ConvertAll<T(==)>(list: seq<Elem<T>>): seq<Elem<T>> {
    seq(|list|, i requires 0 <= i < |list| => Converted(list[i]))
  }

  lemma ConvertAllConcat<T>(a: seq<Elem<T>>, b: seq<Elem<T>>)
    ensures ConvertAll(a + b) == ConvertAll(a) + ConvertAll(b)
  {
  }

  /** `series.append(pd.Series(series.pop(i)))` for an array-like element. */
  function MoveToEnd<T(==)>(list: seq<Elem<T>>, i: nat): (r: seq<Elem<T>>)
    requires i < |list| && list[i].ArrayLike?
    ensures |r| == |list|
  {
    list[..i] + list[i + 1..] + [Series(list[i].cells)]
  }

  /** Popping an array-like element and appending it as a Series keeps the
      prefix before it and, once array-likes are read as Series, the
      elements. */
  lemma MoveToEndKeepsElements<T>(list: seq<Elem<T>>, i: nat)
    requires i < |list| && list[i].ArrayLike?
    ensures var list' := MoveToEnd(list, i);
      && |list'| == |list|
      && (forall t :: 0 <= t < i ==> list'[t] == list[t])
      && multiset(ConvertAll(list')) == multiset(ConvertAll(list))
  {
    var c := list[i].cells;
    var list' := MoveToEnd(list, i);
    var front, back := ConvertAll(list[..i]), ConvertAll(list[i + 1..]);
    assert ConvertAll(list') == front + back + [Series(c)] by {
      ConvertAllConcat(list[..i] + list[i + 1..], [Series(c)]);
      ConvertAllConcat(list[..i], list[i + 1..]);
    }
    assert ConvertAll(list) == front + [Series(c)] + back by {
      assert list == list[..i] + [list[i]] + list[i + 1..];
      ConvertAllConcat(list[..i] + [list[i]], list[i + 1..]);
      ConvertAllConcat(list[..i], [list[i]]);
    }
    calc {
      multiset(front + back + [Series(c)]);
      multiset(front) + multiset(back) + multiset{Series(c)};
      multiset(front + [Series(c)] + back);
    }
  }

  /** After the move, the elements after `i` have shifted down by one and
      the converted element is last. */
  lemma MoveToEndShape<T>(list: seq<Elem<T>>, i: nat)
    requires i < |list| && list[i].ArrayLike?
    ensures var list' := MoveToEnd(list, i);
      && (forall t :: 0 <= t < i ==> list'[t] == list[t])
      && (forall t :: i <= t < |list| - 1 ==> list'[t] == list[t + 1])
      && list'[|list| - 1] == Series(list[i].cells)
  {
  }

  /** The normalisation loop `for i, elem in enumerate(series)`. A visited
      element first has its length compared with `n`; then a Series is kept,
      an array-like element is popped from position `i` and appended as a
      Series, and anything else is refused. The pop shifts the following
      element into position `i`, which the enumeration has passed, so that
      element is never visited. The result is a rearrangement of the input
      in which converted elements have moved to the end. */
  function Normalise<T(==)>(list: seq<Elem<T>>, i: nat, n: nat): (r: Result<seq<Elem<T>>>)
    requires i <= |list|
    ensures r.Ok? ==> |r.value| == |list|
    ensures r.Ok? ==> forall t :: 0 <= t < i ==> r.value[t] == list[t]
    ensures r.Ok? ==> multiset(ConvertAll(r.value)) == multiset(ConvertAll(list))
    ensures r.Err? ==> r.error == NoLength || r.error == LengthMismatch || r.error == UnsupportedElement
    decreases |list| - i
  {
    if i == |list| then Ok(list)
    else
      match Length(list[i])
      case None => Err(NoLength)
      case Some(len) =>
        if len != n then Err(LengthMismatch)
        else
          match list[i]
          case Series(_) => Normalise(list, i + 1, n)
          case ArrayLike(c) =>
            MoveToEndKeepsElements(list, i);
            Normalise(MoveToEnd(list, i), i + 1, n)
          case Other(_) => Err(UnsupportedElement)
  }

  /** The loop stops once the cursor passes the end. */
  lemma NormaliseDone<T>(list: seq<Elem<T>>, n: nat)
    ensures Normalise(list, |list|, n) == Ok(list)
  {
  }

  /** A Series of the right length is kept and the cursor moves on. */
  lemma NormaliseVisitsSeries<T>(list: seq<Elem<T>>, i: nat, n: nat)
    requires i < |list| && list[i].Series? && |list[i].cells| == n
    ensures Normalise(list, i, n) == Normalise(list, i + 1, n)
  {
  }

  /** An array-like of the right length is moved to the end and the cursor
      moves on, past the element that took its place. */
  lemma NormaliseVisitsArrayLike<T>(list: seq<Elem<T>>, i: nat, n: nat)
    requires i < |list| && list[i].ArrayLike? && |list[i].cells| == n
    ensures Normalise(list, i, n) == Normalise(MoveToEnd(list, i), i + 1, n)
  {
  }

  /** An element the loop visits on a successful run passed both checks. */
  lemma NormaliseOkVisits<T>(list: seq<Elem<T>>, i: nat, n: nat)
    requires i < |list|
    requires Normalise(list, i, n).Ok?
    ensures Length(list[i]) == Some(n) && !list[i].Other?
  {
  }

  /** Every element is a Series. */
  ghost predicate AllSeries<T>(list: seq<Elem<T>>) {
    forall t :: 0 <= t < |list| ==> list[t].Series?
  }

  // ---------------------------------------------------------------------
  // The comparison engine

  /** `pd.Series.eq` on one position: a missing value equals nothing. */
  predicate ValuesEqual<T(==)>(x: Cell<T>, y: Cell<T>) {
    x.Val? && y.Val? && x.v == y.v
  }

  /** The boolean one pair of columns contributes at one position. Two
      present values match exactly when they are equal; two missing ones
      match unless the policy is 'none'; a missing value against a present
      one matches only under 'any'. */
  function Match<T(==)>(p: Policy, x: Cell<T>, y: Cell<T>): (r: bool)
    ensures x.Val? && y.Val? ==> (r <==> x.v == y.v)
    ensures x.Null? && y.Null? ==> (r <==> p != NoNa)
    ensures x.Null? != y.Null? ==> (r <==> p == AnyNa)
  {
    match p
    case AnyNa => ValuesEqual(x, y) || x.Null? || y.Null?
    case AllNa => ValuesEqual(x, y) || (x.Null? && y.Null?)
    case NoNa => ValuesEqual(x, y)
  }

  function Mask<T(==)>(p: Policy, a: seq<Cell<T>>, b: seq<Cell<T>>): seq<bool>
    requires |a| == |b|
  {
    seq(|a|, k requires 0 <= k < |a| => Match(p, a[k], b[k]))
  }

  /** `check &= mask`. */
  function AndMask(check: seq<bool>, mask: seq<bool>): seq<bool>
    requires |check| == |mask|
  {
    seq(|check|, k requires 0 <= k < |check| => check[k] && mask[k])
  }

  /** The index pairs of `itertools.permutations(range(m), 2)` from row `i`,
      column `j` onwards, in the order the library produces them. */
  function PermutationsFrom(m: nat, i: nat, j: nat): (r: seq<(nat, nat)>)
    requires i <= m && j <= m
    ensures forall pr :: pr in r <==> pr.0 < m && pr.1 < m && pr.0 != pr.1 && ((pr.0 == i && j <= pr.1) || i < pr.0)
    decreases m - i, m - j
  {
    if i == m then []
    else if j == m then PermutationsFrom(m, i + 1, 0)
    else (if i != j then [(i, j)] else []) + PermutationsFrom(m, i, j + 1)
  }

  /** Every ordered pair of distinct positions. */
  function PermutationPairs(m: nat): (r: seq<(nat, nat)>)
    ensures forall pr :: pr in r <==> pr.0 < m && pr.1 < m && pr.0 != pr.1
  {
    PermutationsFrom(m, 0, 0)
  }

  /** The index pairs of `itertools.pairwise(range(m))`: adjacent positions. */
  function PairwisePairs(m: nat): (r: seq<(nat, nat)>)
    ensures forall pr :: pr in r <==> pr.1 == pr.0 + 1 && pr.1 < m
  {
    if m < 2 then [] else PairwisePairs(m - 1) + [(m - 2, m - 1)]
  }

  /** The pairs the policy enumerates: every ordered pair of distinct
      positions under 'any', the adjacent ones under 'all' and 'none'. */
  function Pairs(p: Policy, m: nat): (r: seq<(nat, nat)>)
    ensures p == AnyNa ==> forall pr :: pr in r <==> pr.0 < m && pr.1 < m && pr.0 != pr.1
    ensures p != AnyNa ==> forall pr :: pr in r <==> pr.1 == pr.0 + 1 && pr.1 < m
  {
    if p == AnyNa then PermutationPairs(m) else PairwisePairs(m)
  }

  ghost predicate Rectangular<T>(cols: seq<seq<Cell<T>>>, n: nat) {
    forall i :: 0 <= i < |cols| ==> |cols[i]| == n
  }

  /** The loop `for a, b in pairs: check &= ...`: position `k` of the result
      holds exactly when it held in `check` and every listed pair matches. */
  function Conjoin<T(==)>(p: Policy, cols: seq<seq<Cell<T>>>, n: nat, pairs: seq<(nat, nat)>, check: seq<bool>): (r: seq<bool>)
    requires Rectangular(cols, n) && |check| == n
    requires forall pr :: pr in pairs ==> pr.0 < |cols| && pr.1 < |cols|
    ensures |r| == n
    ensures forall k :: 0 <= k < n ==>
              (r[k] <==> check[k] && forall pr :: pr in pairs ==> Match(p, cols[pr.0][k], cols[pr.1][k]))
    decreases |pairs|
  {
    if |pairs| == 0 then check
    else
      var a, b := pairs[0].0, pairs[0].1;
      assert forall pr :: pr in pairs <==> pr == pairs[0] || pr in pairs[1..] by {
        assert pairs == [pairs[0]] + pairs[1..];
      }
      Conjoin(p, cols, n, pairs[1..], AndMask(check, Mask(p, cols[a], cols[b])))
  }

  /** The comparison of already normalised, equally long columns. */
  function Compare<T(==)>(p: Policy, cols: seq<seq<Cell<T>>>, n: nat): (r: seq<bool>)
    requires Rectangular(cols, n)
    ensures |r| == n
    ensures forall k :: 0 <= k < n ==>
              (r[k] <==> forall pr :: pr in Pairs(p, |cols|) ==> Match(p, cols[pr.0][k], cols[pr.1][k]))
  {
    Conjoin(p, cols, n, Pairs(p, |cols|), AllTrue(n))
  }

  // ---------------------------------------------------------------------
  // eq_multiple and equals_multiple

  function Columns<T(==)>(list: seq<Elem<T>>): seq<seq<Cell<T>>>
    requires forall i :: 0 <= i < |list| ==> !list[i].Other?
  {
    seq(|list|, i requires 0 <= i < |list| => list[i].cells)
  }

  function AsSeries<T(==)>(cols: seq<seq<Cell<T>>>): seq<Elem<T>> {
    seq(|cols|, i requires 0 <= i < |cols| => Series(cols[i]))
  }

  /** What one pair `(a, b)` of the normalised list contributes:
      `pd.Series.eq(a, b)`, then for 'any' and 'all' `a.isna()` and
      `b.isna()`, then `check &= ...`, in that order, or the exception raised
      on the way. `pd.Series.eq` needs a Series as `self` (AttributeError
      otherwise) and refuses a list, tuple or ndarray `other` of another
      length with ValueError; an array-like `other` has no `isna`. Where the
      library would align by label (two Series of different lengths, a
      mask of another length than `check`, any other kind of `other`) the
      outcome is `OutsideModel`. */
  function PairMask<T(==)>(p: Policy, a: Elem<T>, b: Elem<T>, n: nat): (r: Result<seq<bool>>)
    ensures !a.Series? ==> r == Err(MissingAttribute)
    ensures a.Series? && b.ArrayLike? && |b.cells| != |a.cells| ==> r == Err(LengthMismatch)
    ensures a.Series? && b.ArrayLike? && |b.cells| == |a.cells| && p != NoNa ==> r == Err(MissingAttribute)
    ensures r.Ok? ==> a.Series? && !b.Other? && |a.cells| == n && |b.cells| == n
    ensures r.Ok? ==> |r.value| == n && forall k :: 0 <= k < n ==> (r.value[k] <==> Match(p, a.cells[k], b.cells[k]))
    ensures a.Series? && b.Series? && |a.cells| == n && |b.cells| == n ==> r.Ok?
  {
    match a
    case Series(x) =>
      (match b
       case Series(y) => if |x| == n && |y| == n then Ok(Mask(p, x, y)) else Err(OutsideModel)
       case ArrayLike(y) =>
         if |y| != |x| then Err(LengthMismatch)
         else if p != NoNa then Err(MissingAttribute)
         else if |x| == n then Ok(Mask(p, x, y))
         else Err(OutsideModel)
       case Other(_) => Err(OutsideModel))
    case _ => Err(MissingAttribute)
  }

  function PairAt<T(==)>(p: Policy, list: seq<Elem<T>>, n: nat, pr: (nat, nat)): Result<seq<bool>>
    requires pr.0 < |list| && pr.1 < |list|
  {
    PairMask(p, list[pr.0], list[pr.1], n)
  }

  /** The loop `for a, b in pairs: check &= ...` over the list as the
      normalisation loop left it: it succeeds exactly when every pair does,
      and otherwise raises the exception of the first pair that fails. */
  function CheckPairs<T(==)>(p: Policy, list: seq<Elem<T>>, n: nat, pairs: seq<(nat, nat)>, check: seq<bool>): (r: Result<seq<bool>>)
    requires |check| == n
    requires forall pr :: pr in pairs ==> pr.0 < |list| && pr.1 < |list|
    ensures r.Ok? <==> forall pr :: pr in pairs ==> PairAt(p, list, n, pr).Ok?
    ensures r.Ok? ==> |r.value| == n
    ensures r.Err? ==> exists j :: 0 <= j < |pairs| && PairAt(p, list, n, pairs[j]) == Err(r.error) &&
                                   forall i :: 0 <= i < j ==> PairAt(p, list, n, pairs[i]).Ok?
    decreases |pairs|
  {
    if |pairs| == 0 then Ok(check)
    else
      assert forall pr :: pr in pairs <==> pr == pairs[0] || pr in pairs[1..] by {
        assert pairs == [pairs[0]] + pairs[1..];
      }
      match PairAt(p, list, n, pairs[0])
      case Err(e) => Err(e)
      case Ok(mask) =>
        var r := CheckPairs(p, list, n, pairs[1..], AndMask(check, mask));
        if r.Err? then FirstFailureShifts(p, list, n, pairs, r.error); r else r
  }

  /** A failing pair that is the first to fail after `pairs[0]` is the first
      to fail in `pairs` when `pairs[0]` succeeds. */
  lemma FirstFailureShifts<T>(p: Policy, list: seq<Elem<T>>, n: nat, pairs: seq<(nat, nat)>, e: Error)
    requires |pairs| > 0
    requires forall pr :: pr in pairs ==> pr.0 < |list| && pr.1 < |list|
    requires PairAt(p, list, n, pairs[0]).Ok?
    requires exists j :: 0 <= j < |pairs[1..]| && PairAt(p, list, n, pairs[1..][j]) == Err(e) &&
                         forall i :: 0 <= i < j ==> PairAt(p, list, n, pairs[1..][i]).Ok?
    ensures exists j :: 0 <= j < |pairs| && PairAt(p, list, n, pairs[j]) == Err(e) &&
                        forall i :: 0 <= i < j ==> PairAt(p, list, n, pairs[i]).Ok?
  {
    var j :| 0 <= j < |pairs[1..]| && PairAt(p, list, n, pairs[1..][j]) == Err(e) &&
             forall i :: 0 <= i < j ==> PairAt(p, list, n, pairs[1..][i]).Ok?;
    assert PairAt(p, list, n, pairs[j + 1]) == Err(e);
    forall i | 0 <= i < j + 1 ensures PairAt(p, list, n, pairs[i]).Ok? {
      if i > 0 { assert pairs[i] == pairs[1..][i - 1]; }
    }
  }

  /** On Series of length `n` every pair succeeds, and the loop computes
      the comparison of their data. */
  lemma {:induction false} CheckPairsOnSeries<T>(p: Policy, list: seq<Elem<T>>, n: nat, pairs: seq<(nat, nat)>, check: seq<bool>)
    requires |check| == n
    requires forall t :: 0 <= t < |list| ==> list[t].Series? && |list[t].cells| == n
    requires forall pr :: pr in pairs ==> pr.0 < |list| && pr.1 < |list|
    ensures Rectangular(Columns(list), n)
    ensures CheckPairs(p, list, n, pairs, check) == Ok(Conjoin(p, Columns(list), n, pairs, check))
    decreases |pairs|
  {
    if |pairs| > 0 {
      assert forall pr :: pr in pairs[1..] ==> pr in pairs;
      var a, b := pairs[0].0, pairs[0].1;
      var mask := PairAt(p, list, n, pairs[0]).value;
      assert mask == Mask(p, Columns(list)[a], Columns(list)[b]);
      CheckPairsOnSeries(p, list, n, pairs[1..], AndMask(check, mask));
    }
  }

  /** The last element is a Series of length `n`. */
  ghost predicate EndsWithSeries<T>(list: seq<Elem<T>>, n: nat) {
    |list| > 0 && list[|list| - 1].Series? && |list[|list| - 1].cells| == n
  }

  /** The last position is always visited, so after a successful loop it
      holds a Series of length `n`. */
  lemma {:induction false} NormaliseEndsWithSeries<T>(list: seq<Elem<T>>, i: nat, n: nat)
    requires i < |list|
    requires Normalise(list, i, n).Ok?
    ensures EndsWithSeries(Normalise(list, i, n).value, n)
    decreases |list| - i
  {
    NormaliseOkVisits(list, i, n);
    if list[i].Series? {
      NormaliseVisitsSeries(list, i, n);
      if i + 1 < |list| {
        NormaliseEndsWithSeries(list, i + 1, n);
      } else {
        NormaliseDone(list, n);
      }
    } else {
      var list' := MoveToEnd(list, i);
      NormaliseVisitsArrayLike(list, i, n);
      assert |list'| == |list|;
      if i + 1 < |list| {
        NormaliseEndsWithSeries(list', i + 1, n);
      } else {
        NormaliseDone(list', n);
      }
    }
  }

  /** If every pair of the normalised list succeeds, every element is a
      Series of length `n`: each position but the last is the `self` of the
      pair with its successor, and the last is a Series by the loop. */
  lemma PassingPairsMeanSeries<T>(p: Policy, list: seq<Elem<T>>, n: nat)
    requires EndsWithSeries(list, n)
    requires forall pr :: pr in Pairs(p, |list|) ==> pr.0 < |list| && pr.1 < |list| && PairAt(p, list, n, pr).Ok?
    ensures forall t :: 0 <= t < |list| ==> list[t].Series? && |list[t].cells| == n
  {
    forall t | 0 <= t < |list| - 1
      ensures list[t].Series? && |list[t].cells| == n
    {
      assert (t, t + 1) in Pairs(p, |list|);
      assert PairAt(p, list, n, (t, t + 1)).Ok?;
    }
  }

  /** A normalised list of Series of length `n` compares like the original
      elements, in their original order. */
  lemma NormalisedComparison<T>(p: Policy, elems: seq<Elem<T>>, out: seq<Elem<T>>, n: nat)
    requires |out| == |elems|
    requires forall t :: 0 <= t < |out| ==> out[t].Series? && |out[t].cells| == n
    requires multiset(ConvertAll(out)) == multiset(ConvertAll(elems))
    ensures forall i :: 0 <= i < |elems| ==> !elems[i].Other? && |elems[i].cells| == n
    ensures Rectangular(Columns(elems), n)
    ensures Compare(p, Columns(out), n) == Compare(p, Columns(elems), n)
  {
    assert ConvertAll(out) == out;
    forall s | 0 <= s < |elems| ensures !elems[s].Other? && |elems[s].cells| == n {
      assert ConvertAll(elems)[s] in multiset(ConvertAll(out));
      var t :| 0 <= t < |out| && out[t] == ConvertAll(elems)[s];
    }
    var cols, cols' := Columns(out), Columns(elems);
    forall c | c in cols ensures c in cols' {
      var t :| 0 <= t < |out| && out[t].cells == c;
      assert Converted(out[t]) in multiset(ConvertAll(elems));
      var s :| 0 <= s < |elems| && ConvertAll(elems)[s] == out[t];
      assert cols'[s] == c;
    }
    forall c | c in cols' ensures c in cols {
      var s :| 0 <= s < |elems| && elems[s].cells == c;
      assert ConvertAll(elems)[s] in multiset(ConvertAll(out));
      var t :| 0 <= t < |out| && out[t] == ConvertAll(elems)[s];
      assert cols[t] == c;
    }
    CompareDependsOnlyOnMembers(p, cols, cols', n);
  }

  /** The list branch of `eq_multiple`, after the DataFrame case has been
      turned into a list. An element the normalisation loop skipped stays
      where it is, unconverted and unchecked, and always has a successor:
      the pair loop then raises on it, so a success means every element was
      an array-like of the first one's length, and the result is the
      comparison of their data in the order given. */
  function EqList<T(==)>(elems: seq<Elem<T>>, na: string): (r: Result<seq<bool>>)
    ensures |elems| == 0 ==> r == Err(EmptyInput)
    ensures r.Ok? ==> |elems| > 0 && Length(elems[0]) == Some(|r.value|)
    ensures r.Ok? ==> ParsePolicy(na).Some?
    ensures r.Ok? ==> && (forall i :: 0 <= i < |elems| ==> !elems[i].Other? && |elems[i].cells| == |r.value|)
                      && r.value == Compare(ParsePolicy(na).value, Columns(elems), |r.value|)
  {
    if |elems| == 0 then Err(EmptyInput)
    else
      match Length(elems[0])
      case None => Err(NoLength)
      case Some(n) =>
        match Normalise(elems, 0, n)
        case Err(e) => Err(e)
        case Ok(list) =>
          match ParsePolicy(na)
          case None => Err(UnknownPolicy)
          case Some(p) =>
            var r := CheckPairs(p, list, n, Pairs(p, |list|), AllTrue(n));
            if r.Ok? then
              NormaliseEndsWithSeries(elems, 0, n);
              PassingPairsMeanSeries(p, list, n);
              CheckPairsOnSeries(p, list, n, Pairs(p, |list|), AllTrue(n));
              NormalisedComparison(p, elems, list, n);
              r
            else r
  }

  /** `eq_multiple(series, na)`. */
  function EqMultiple<T(==)>(data: Input<T>, na: string := "any"): (r: Result<seq<bool>>)
    ensures data.NotAList? ==> r == (if data.size.None? then Err(NoLength) else Ok(AllTrue(data.size.value)))
    ensures data.List? && |data.elems| == 0 ==> r == Err(EmptyInput)
    ensures data.Frame? && |data.columns| == 0 ==> r == Err(EmptyInput)
    ensures data.List? && r.Ok? ==> |data.elems| > 0 && Length(data.elems[0]) == Some(|r.value|)
    ensures data.Frame? && r.Ok? ==> |data.columns| > 0 && |data.columns[0]| == |r.value|
    ensures !data.NotAList? && r.Ok? ==> ParsePolicy(na).Some?
    ensures data.List? && r.Ok? ==>
              && (forall i :: 0 <= i < |data.elems| ==> !data.elems[i].Other? && |data.elems[i].cells| == |r.value|)
              && r.value == Compare(ParsePolicy(na).value, Columns(data.elems), |r.value|)
  {
    match data
    case NotAList(size) => if size.None? then Err(NoLength) else Ok(AllTrue(size.value))
    case Frame(columns) => EqList(AsSeries(columns), na)
    case List(elems) => EqList(elems, na)
  }

  /** `equals_multiple(series, na)`: the conjunction of `eq_multiple`. */
  function EqualsMultiple<T(==)>(data: Input<T>, na: string := "any"): (r: Result<bool>)
    ensures r.Ok? <==> EqMultiple(data, na).Ok?
    ensures r.Err? ==> r.error == EqMultiple(data, na).error
    ensures r.Ok? ==> (r.value <==> forall k :: 0 <= k < |EqMultiple(data, na).value| ==> EqMultiple(data, na).value[k])
  {
    match EqMultiple(data, na)
    case Err(e) => Err(e)
    case Ok(check) => Ok(forall k :: 0 <= k < |check| ==> check[k])
  }

  // ---------------------------------------------------------------------
  // Reference definitions: what each policy means at one position

  /** The cells of all columns at position `k`. */
  function Row<T>(cols: seq<seq<Cell<T>>>, k: nat): (row: seq<Cell<T>>)
    requires forall i :: 0 <= i < |cols| ==> k < |cols[i]|
    ensures |row| == |cols|
  {
    seq(|cols|, i requires 0 <= i < |cols| => cols[i][k])
  }

  /** All values present in `row` are the same value. */
  ghost predicate NonNullAgree<T>(row: seq<Cell<T>>) {
    forall x, y :: x in row && y in row && x.Val? && y.Val? ==> x.v == y.v
  }

  ghost predicate AllNull<T>(row: seq<Cell<T>>) {
    forall x :: x in row ==> x.Null?
  }

  ghost predicate NoNull<T>(row: seq<Cell<T>>) {
    forall x :: x in row ==> x.Val?
  }

  /** The documented meaning of each policy at one position: 'any' ignores
      missing values; 'all' accepts a position where everything is missing
      or everything is present and equal; 'none' accepts only the latter
      (with a single column there is nothing to compare). */
  ghost predicate Expected<T>(p: Policy, row: seq<Cell<T>>) {
    match p
    case AnyNa => NonNullAgree(row)
    case AllNa => AllNull(row) || (NoNull(row) && NonNullAgree(row))
    case NoNa => |row| < 2 || (NoNull(row) && NonNullAgree(row))
  }

  lemma {:induction false} ChainEqualsFirst<T>(row: seq<Cell<T>>)
    requires forall t :: 0 <= t && t + 1 < |row| ==> row[t] == row[t + 1]
    ensures forall i :: 0 <= i < |row| ==> row[i] == row[0]
  {
    if |row| > 1 {
      var front := row[..|row| - 1];
      assert forall t :: 0 <= t && t + 1 < |front| ==> front[t] == front[t + 1];
      ChainEqualsFirst(front);
      assert forall i :: 0 <= i < |front| ==> row[i] == front[i];
      assert row[|row| - 1] == row[|row| - 2];
    }
  }

  lemma AnyCharacterisation<T>(cols: seq<seq<Cell<T>>>, n: nat)
    requires Rectangular(cols, n)
    ensures forall k :: 0 <= k < n ==> (Compare(AnyNa, cols, n)[k] <==> NonNullAgree(Row(cols, k)))
  {
    var pairs := PermutationPairs(|cols|);
    forall k | 0 <= k < n
      ensures Compare(AnyNa, cols, n)[k] <==> NonNullAgree(Row(cols, k))
    {
      var row := Row(cols, k);
      if Compare(AnyNa, cols, n)[k] {
        forall x, y | x in row && y in row && x.Val? && y.Val?
          ensures x.v == y.v
        {
          var i: nat :| i < |row| && row[i] == x;
          var j: nat :| j < |row| && row[j] == y;
          if i != j {
            assert (i, j) in pairs;
          }
        }
      } else {
        var pr :| pr in pairs && !Match(AnyNa, cols[pr.0][k], cols[pr.1][k]);
        assert row[pr.0] in row && row[pr.1] in row;
      }
    }
  }

  lemma AllCharacterisation<T>(cols: seq<seq<Cell<T>>>, n: nat)
    requires Rectangular(cols, n)
    ensures forall k :: 0 <= k < n ==>
              (Compare(AllNa, cols, n)[k] <==>
                 AllNull(Row(cols, k)) || (NoNull(Row(cols, k)) && NonNullAgree(Row(cols, k))))
  {
    var pairs := PairwisePairs(|cols|);
    forall k | 0 <= k < n
      ensures Compare(AllNa, cols, n)[k] <==> AllNull(Row(cols, k)) || (NoNull(Row(cols, k)) && NonNullAgree(Row(cols, k)))
    {
      var row := Row(cols, k);
      if Compare(AllNa, cols, n)[k] {
        forall t | 0 <= t && t + 1 < |row|
          ensures row[t] == row[t + 1]
        {
          assert (t, t + 1) in pairs;
        }
        ChainEqualsFirst(row);
      } else {
        var pr :| pr in pairs && !Match(AllNa, cols[pr.0][k], cols[pr.1][k]);
        assert row[pr.0] in row && row[pr.1] in row;
      }
    }
  }

  lemma NoneCharacterisation<T>(cols: seq<seq<Cell<T>>>, n: nat)
    requires Rectangular(cols, n)
    ensures forall k :: 0 <= k < n ==>
              (Compare(NoNa, cols, n)[k] <==> |cols| < 2 || (NoNull(Row(cols, k)) && NonNullAgree(Row(cols, k))))
  {
    var pairs := PairwisePairs(|cols|);
    forall k | 0 <= k < n
      ensures Compare(NoNa, cols, n)[k] <==> |cols| < 2 || (NoNull(Row(cols, k)) && NonNullAgree(Row(cols, k)))
    {
      var row := Row(cols, k);
      if Compare(NoNa, cols, n)[k] {
        forall t | 0 <= t && t + 1 < |row|
          ensures row[t] == row[t + 1] && row[t].Val?
        {
          assert (t, t + 1) in pairs;
        }
        ChainEqualsFirst(row);
      } else {
        var pr :| pr in pairs && !Match(NoNa, cols[pr.0][k], cols[pr.1][k]);
        assert row[pr.0] in row && row[pr.1] in row;
      }
    }
  }

  /** Each policy computes its documented meaning at every position. */
  lemma CompareMeetsReference<T>(p: Policy, cols: seq<seq<Cell<T>>>, n: nat)
    requires Rectangular(cols, n)
    ensures forall k :: 0 <= k < n ==> (Compare(p, cols, n)[k] <==> Expected(p, Row(cols, k)))
  {
    match p
    case AnyNa => AnyCharacterisation(cols, n);
    case AllNa => AllCharacterisation(cols, n);
    case NoNa => NoneCharacterisation(cols, n);
  }

  /** The result depends only on which columns occur, and how many. */
  lemma CompareDependsOnlyOnMembers<T>(p: Policy, cols: seq<seq<Cell<T>>>, cols': seq<seq<Cell<T>>>, n: nat)
    requires Rectangular(cols, n) && Rectangular(cols', n)
    requires |cols| == |cols'|
    requires forall c :: c in cols <==> c in cols'
    ensures Compare(p, cols, n) == Compare(p, cols', n)
  {
    CompareMeetsReference(p, cols, n);
    CompareMeetsReference(p, cols', n);
    forall k | 0 <= k < n
      ensures Compare(p, cols, n)[k] == Compare(p, cols', n)[k]
    {
      var row, row' := Row(cols, k), Row(cols', k);
      forall x | x in row
        ensures x in row'
      {
        var i :| 0 <= i < |row| && row[i] == x;
        assert cols[i] in cols';
        var j :| 0 <= j < |cols'| && cols'[j] == cols[i];
        assert row'[j] == x;
      }
      forall x | x in row'
        ensures x in row
      {
        var j :| 0 <= j < |row'| && row'[j] == x;
        assert cols'[j] in cols;
        var i :| 0 <= i < |cols| && cols[i] == cols'[j];
        assert row[i] == x;
      }
    }
  }

  /** Permuting the input columns does not change the comparison, under
      every policy: the adjacent-pair chains of 'all' and 'none' reach the
      same verdict as the all-pairs check because their pair relations are
      transitive. */
  lemma CompareOrderIndependent<T>(p: Policy, cols: seq<seq<Cell<T>>>, cols': seq<seq<Cell<T>>>, n: nat)
    requires Rectangular(cols, n)
    requires multiset(cols) == multiset(cols')
    ensures Rectangular(cols', n)
    ensures Compare(p, cols, n) == Compare(p, cols', n)
  {
    assert |cols| == |multiset(cols)| == |cols'|;
    forall c | c in cols ensures c in cols' {
      assert c in multiset(cols);
    }
    forall c | c in cols' ensures c in cols {
      assert c in multiset(cols');
    }
    forall i | 0 <= i < |cols'| ensures |cols'[i]| == n {
      assert cols'[i] in cols;
    }
    CompareDependsOnlyOnMembers(p, cols, cols', n);
  }

  /** Without missing values the three policies coincide. */
  lemma PoliciesAgreeWithoutNulls<T>(cols: seq<seq<Cell<T>>>, n: nat)
    requires Rectangular(cols, n)
    requires forall i, k :: 0 <= i < |cols| && 0 <= k < n ==> cols[i][k].Val?
    ensures Compare(AnyNa, cols, n) == Compare(AllNa, cols, n) == Compare(NoNa, cols, n)
  {
    AnyCharacterisation(cols, n);
    AllCharacterisation(cols, n);
    NoneCharacterisation(cols, n);
    forall k | 0 <= k < n
      ensures NoNull(Row(cols, k))
    {
    }
  }

  // ---------------------------------------------------------------------
  // Properties of eq_multiple

  lemma {:induction false} NormaliseSeriesPrefix<T>(list: seq<Elem<T>>, i: nat, j: nat, n: nat)
    requires i <= j <= |list|
    requires forall t :: i <= t < j ==> list[t].Series? && |list[t].cells| == n
    ensures Normalise(list, i, n) == Normalise(list, j, n)
    decreases j - i
  {
    if i < j {
      assert list[i].Series? && |list[i].cells| == n;
      NormaliseVisitsSeries(list, i, n);
      NormaliseSeriesPrefix(list, i + 1, j, n);
    }
  }

  lemma {:induction false} NormaliseSeries<T>(list: seq<Elem<T>>, i: nat, n: nat)
    requires i <= |list|
    requires forall t :: i <= t < |list| ==> list[t].Series?
    ensures Normalise(list, i, n) ==
              if forall t :: i <= t < |list| ==> |list[t].cells| == n then Ok(list) else Err(LengthMismatch)
    decreases |list| - i
  {
    if i < |list| {
      if |list[i].cells| == n {
        NormaliseVisitsSeries(list, i, n);
      }
      NormaliseSeries(list, i + 1, n);
    }
  }

  /** On a list of Series (or a DataFrame's columns) `eq_multiple` raises
      ValueError for unequal lengths, then for an unknown policy, and
      otherwise compares the columns. */
  lemma EqMultipleOnSeries<T>(cols: seq<seq<Cell<T>>>, na: string)
    requires |cols| > 0
    ensures EqMultiple(List(AsSeries(cols)), na) == EqMultiple(Frame(cols), na)
    ensures EqMultiple(Frame(cols), na) ==
              if !Rectangular(cols, |cols[0]|) then Err(LengthMismatch)
              else if ParsePolicy(na).None? then Err(UnknownPolicy)
              else Ok(Compare(ParsePolicy(na).value, cols, |cols[0]|))
  {
    var elems := AsSeries(cols);
    NormaliseSeries(elems, 0, |cols[0]|);
    assert forall t :: 0 <= t < |elems| ==> elems[t].cells == cols[t];
    if Rectangular(cols, |cols[0]|) {
      assert Columns(elems) == cols;
    }
  }

  /** On lists of Series the order of the list does not matter: any
      permutation gives the same result, errors included. */
  lemma EqMultipleSeriesPermutation<T>(cols: seq<seq<Cell<T>>>, cols': seq<seq<Cell<T>>>, na: string)
    requires |cols| > 0
    requires multiset(cols) == multiset(cols')
    ensures EqMultiple(List(AsSeries(cols)), na) == EqMultiple(List(AsSeries(cols')), na)
  {
    assert |cols'| == |multiset(cols')| == |cols|;
    EqMultipleOnSeries(cols, na);
    EqMultipleOnSeries(cols', na);
    var n, n' := |cols[0]|, |cols'[0]|;
    if Rectangular(cols, n) {
      assert cols'[0] in multiset(cols);
      assert n' == n;
      CompareOrderIndependent(AnyNa, cols, cols', n);
      if ParsePolicy(na).Some? {
        CompareOrderIndependent(ParsePolicy(na).value, cols, cols', n);
      }
    } else if Rectangular(cols', n') {
      CompareOrderIndependent(AnyNa, cols', cols, n');
      assert false;
    }
  }

  /** A one-element list yields all-True under every valid policy, and an
      unknown policy is still refused. */
  lemma SingleElementAllTrue<T>(e: Elem<T>, na: string)
    requires !e.Other?
    ensures EqMultiple(List([e]), na) ==
              if ParsePolicy(na).Some? then Ok(AllTrue(|e.cells|)) else Err(UnknownPolicy)
  {
    var n := |e.cells|;
    assert Normalise([e], 0, n).Ok?;
    if ParsePolicy(na).Some? {
      var p := ParsePolicy(na).value;
      assert Pairs(p, 1) == [];
      var r := EqMultiple(List([e]), na);
      assert r.Ok?;
      assert r.value == AllTrue(n);
    }
  }

  /** The length check comes before the kind check: an unsupported element
      of the right length raises TypeError, of the wrong length ValueError. */
  lemma LengthCheckedBeforeKind<T>(elems: seq<Elem<T>>, j: nat, n: nat, na: string)
    requires j < |elems|
    requires Length(elems[0]) == Some(n)
    requires forall i :: 0 <= i < j ==> elems[i].Series? && |elems[i].cells| == n
    requires elems[j].Other? && elems[j].size.Some?
    ensures EqMultiple(List(elems), na) == Err(if elems[j].size.value == n then UnsupportedElement else LengthMismatch)
  {
    NormaliseSeriesPrefix(elems, 0, j, n);
  }

  /** The element right after a converted one is never visited. */
  lemma SkippedElementIsNotChecked<T>(c: seq<Cell<T>>, e: Elem<T>)
    ensures Normalise([ArrayLike(c), e], 0, |c|) == Ok([e, Series(c)])
  {
    var list, list' := [ArrayLike(c), e], [e, Series(c)];
    NormaliseVisitsArrayLike(list, 0, |c|);
    assert MoveToEnd(list, 0) == list';
    NormaliseVisitsSeries(list', 1, |c|);
    NormaliseDone(list', |c|);
  }

  /** So a dict of the right length placed after a list escapes the
      TypeError the kind check promises; the comparison then fails inside
      the library. */
  lemma DictAfterListEscapesKindCheck<T>(c: seq<Cell<T>>, na: string)
    requires ParsePolicy(na).Some?
    ensures EqMultiple(List([ArrayLike(c), Other(Some(|c|))]), na) == Err(MissingAttribute)
  {
    SkippedElementIsNotChecked(c, Other(Some(|c|)));
    var p := ParsePolicy(na).value;
    var list: seq<Elem<T>> := [Other(Some(|c|)), Series(c)];
    FirstPairIsZeroOne(p, 2);
    assert PairAt(p, list, |c|, (0, 1)) == Err(MissingAttribute);
  }

  /** The simplest input that shows it: of two lists, the second is never
      visited and becomes the `self` of the first pair, which has no `eq`
      of pandas' Series, so the call raises AttributeError. */
  lemma TwoListsRaiseAttributeError<T>(c: seq<Cell<T>>, c': seq<Cell<T>>, na: string)
    requires |c'| == |c|
    requires ParsePolicy(na).Some?
    ensures EqMultiple(List([ArrayLike(c), ArrayLike(c')]), na) == Err(MissingAttribute)
    ensures EqMultiple(List([ArrayLike(c), ArrayLike(c')]), na).error.Class() == AttributeError
  {
    var n := |c|;
    var elems: seq<Elem<T>> := [ArrayLike(c), ArrayLike(c')];
    var list: seq<Elem<T>> := [ArrayLike(c'), Series(c)];
    SkippedElementIsNotChecked(c, ArrayLike(c'));
    assert Normalise(elems, 0, n) == Ok(list);
    var p := ParsePolicy(na).value;
    assert PairAt(p, list, n, (0, 1)) == Err(MissingAttribute);
    FirstPairFails(p, list, n, MissingAttribute);
  }

  /** When the first pair fails, the pair loop fails with its error. */
  lemma FirstPairFails<T>(p: Policy, list: seq<Elem<T>>, n: nat, e: Error)
    requires |list| >= 2
    requires PairAt(p, list, n, (0, 1)) == Err(e)
    ensures CheckPairs(p, list, n, Pairs(p, |list|), AllTrue(n)) == Err(e)
  {
    FirstPairIsZeroOne(p, |list|);
  }

  /** Both enumerations start with the pair of the first two positions. */
  lemma FirstPairIsZeroOne(p: Policy, m: nat)
    requires m >= 2
    ensures |Pairs(p, m)| > 0 && Pairs(p, m)[0] == (0, 1)
  {
    if p == AnyNa {
      assert PermutationsFrom(m, 0, 0) == PermutationsFrom(m, 0, 1);
    } else {
      FirstPairwisePair(m);
    }
  }

  lemma {:induction false} FirstPairwisePair(m: nat)
    requires m >= 2
    ensures |PairwisePairs(m)| > 0 && PairwisePairs(m)[0] == (0, 1)
  {
    if m > 2 {
      FirstPairwisePair(m - 1);
    }
  }

  /** A list of the wrong length right after a converted one escapes the
      loop's length check; `pd.Series.eq` then refuses it against the first
      Series with ValueError. */
  lemma ShortListAfterListRaisesValueError<T>(s0: seq<Cell<T>>, c2: seq<Cell<T>>, c1: seq<Cell<T>>, na: string)
    requires |c2| == |s0| && |c1| != |s0|
    requires ParsePolicy(na).Some?
    ensures EqMultiple(List([Series(s0), ArrayLike(c2), ArrayLike(c1)]), na) == Err(LengthMismatch)
  {
    var n := |s0|;
    var elems: seq<Elem<T>> := [Series(s0), ArrayLike(c2), ArrayLike(c1)];
    var list: seq<Elem<T>> := [Series(s0), ArrayLike(c1), Series(c2)];
    NormaliseVisitsSeries(elems, 0, n);
    NormaliseVisitsArrayLike(elems, 1, n);
    assert MoveToEnd(elems, 1) == list;
    NormaliseVisitsSeries(list, 2, n);
    assert Normalise(list, 3, n) == Ok(list);
    var p := ParsePolicy(na).value;
    FirstPairIsZeroOne(p, 3);
    assert PairAt(p, list, n, (0, 1)) == Err(LengthMismatch);
  }

  /** An array-like element at `t` is followed by a Series (or is last). */
  ghost predicate FollowedBySeries<T>(list: seq<Elem<T>>, t: nat) {
    t + 1 < |list| && list[t].ArrayLike? ==> list[t + 1].Series?
  }

  /** The shape the normalisation loop keeps when no two non-Series
      elements are adjacent: everything before the cursor is a Series. */
  ghost predicate NoAdjacentFrom<T>(list: seq<Elem<T>>, i: nat, n: nat) {
    && i <= |list|
    && (forall t :: 0 <= t < |list| ==> !list[t].Other? && |list[t].cells| == n)
    && (forall t :: 0 <= t < i ==> list[t].Series?)
    && (forall t: nat :: i <= t ==> FollowedBySeries(list, t))
  }

  lemma ConversionKeepsShape<T>(list: seq<Elem<T>>, i: nat, n: nat)
    requires i < |list| && list[i].ArrayLike?
    requires NoAdjacentFrom(list, i, n)
    ensures NoAdjacentFrom(MoveToEnd(list, i), i + 1, n)
  {
    var list' := MoveToEnd(list, i);
    MoveToEndShape(list, i);
    assert list'[i].Series? by {
      if i + 1 < |list| {
        assert FollowedBySeries(list, i);
        assert list'[i] == list[i + 1];
      }
    }
    forall t | 0 <= t < |list'|
      ensures !list'[t].Other? && |list'[t].cells| == n
    {
      if t < i {
        assert list'[t] == list[t];
      } else if t < |list| - 1 {
        assert list'[t] == list[t + 1];
      }
    }
    forall t: nat | i + 1 <= t
      ensures FollowedBySeries(list', t)
    {
      if t + 1 < |list'| && list'[t].ArrayLike? {
        assert list'[t] == list[t + 1];
        assert FollowedBySeries(list, t + 1);
        if t + 1 < |list| - 1 {
          assert list'[t + 1] == list[t + 2];
        }
      }
    }
  }

  lemma {:induction false} NormaliseNoAdjacent<T>(list: seq<Elem<T>>, i: nat, n: nat)
    requires NoAdjacentFrom(list, i, n)
    ensures Normalise(list, i, n).Ok? && AllSeries(Normalise(list, i, n).value)
    decreases |list| - i
  {
    if i == |list| {
      NormaliseDone(list, n);
    } else {
      assert !list[i].Other? && |list[i].cells| == n;
      if list[i].Series? {
        NormaliseVisitsSeries(list, i, n);
        assert NoAdjacentFrom(list, i + 1, n);
        NormaliseNoAdjacent(list, i + 1, n);
      } else {
        NormaliseVisitsArrayLike(list, i, n);
        ConversionKeepsShape(list, i, n);
        NormaliseNoAdjacent(MoveToEnd(list, i), i + 1, n);
      }
    }
  }

  /** When no two non-Series elements are adjacent, the reordering done by
      the normalisation loop is harmless: the result is the comparison of
      the elements' data in their original order. */
  lemma EqMultipleMixed<T>(elems: seq<Elem<T>>, n: nat, na: string)
    requires |elems| > 0
    requires forall i :: 0 <= i < |elems| ==> !elems[i].Other? && |elems[i].cells| == n
    requires forall t: nat :: FollowedBySeries(elems, t)
    requires ParsePolicy(na).Some?
    ensures Rectangular(Columns(elems), n)
    ensures EqMultiple(List(elems), na) == Ok(Compare(ParsePolicy(na).value, Columns(elems), n))
  {
    NormaliseNoAdjacent(elems, 0, n);
    var out := Normalise(elems, 0, n).value;
    assert forall t :: 0 <= t < |out| ==> out[t].Series?;
    var p := ParsePolicy(na).value;
    assert ConvertAll(out) == out;
    forall t | 0 <= t < |out| ensures |out[t].cells| == n {
      assert Converted(out[t]) in multiset(ConvertAll(elems));
    }
    CheckPairsOnSeries(p, out, n, Pairs(p, |out|), AllTrue(n));
    NormalisedComparison(p, elems, out, n);
  }

  /** With a Series first, the list after it is converted and the one
      after that is never visited; it meets `pd.Series.eq` as `self` of a
      pair and raises AttributeError. */
  lemma SeriesFirstRaises<T>(s: seq<Cell<T>>, c: seq<Cell<T>>, c': seq<Cell<T>>, na: string)
    requires |c| == |s| && |c'| == |s|
    requires ParsePolicy(na).Some?
    ensures EqMultiple(List([Series(s), ArrayLike(c), ArrayLike(c')]), na) == Err(MissingAttribute)
  {
    var n := |s|;
    var p := ParsePolicy(na).value;
    var elems: seq<Elem<T>> := [Series(s), ArrayLike(c), ArrayLike(c')];
    var list: seq<Elem<T>> := [Series(s), ArrayLike(c'), Series(c)];
    NormaliseVisitsSeries(elems, 0, n);
    NormaliseVisitsArrayLike(elems, 1, n);
    assert MoveToEnd(elems, 1) == list;
    NormaliseVisitsSeries(list, 2, n);
    NormaliseDone(list, n);
    if p == NoNa {
      assert Pairs(p, 3) == [(0, 1), (1, 2)];
      assert PairAt(p, list, n, (0, 1)).Ok?;
      assert PairAt(p, list, n, (1, 2)) == Err(MissingAttribute);
    } else {
      FirstPairIsZeroOne(p, 3);
      assert PairAt(p, list, n, (0, 1)) == Err(MissingAttribute);
    }
  }

  /** With a list first, the Series after it is skipped harmlessly and the
      same three elements are compared in order. */
  lemma ListFirstCompares<T>(s: seq<Cell<T>>, c: seq<Cell<T>>, c': seq<Cell<T>>, na: string)
    requires |c| == |s| && |c'| == |s|
    requires ParsePolicy(na).Some?
    ensures EqMultiple(List([ArrayLike(c), Series(s), ArrayLike(c')]), na) == Ok(Compare(ParsePolicy(na).value, [c, s, c'], |s|))
  {
    var elems: seq<Elem<T>> := [ArrayLike(c), Series(s), ArrayLike(c')];
    forall t: nat ensures FollowedBySeries(elems, t) {
    }
    EqMultipleMixed(elems, |s|, na);
    assert Columns(elems) == [c, s, c'];
  }

  /** So for mixed lists the order of the list matters: two orderings of
      the same elements, one raising and one comparing. */
  lemma MixedListOrderMatters<T>(s: seq<Cell<T>>, c: seq<Cell<T>>, c': seq<Cell<T>>, na: string)
    requires |c| == |s| && |c'| == |s|
    requires ParsePolicy(na).Some?
    ensures multiset([Series(s), ArrayLike(c), ArrayLike(c')]) == multiset([ArrayLike(c), Series(s), ArrayLike(c')])
    ensures EqMultiple(List([Series(s), ArrayLike(c), ArrayLike(c')]), na).Err?
    ensures EqMultiple(List([ArrayLike(c), Series(s), ArrayLike(c')]), na).Ok?
  {
    SeriesFirstRaises(s, c, c', na);
    ListFirstCompares(s, c, c', na);
  }

  // ---------------------------------------------------------------------
  // The normalisation loop as evidently intended

  /** The exception the loop's checks raise for one element, if any: the
      length check first, then the kind check. */
  function Fault<T(==)>(e: Elem<T>, n: nat): Option<Error> {
    match Length(e)
    case None => Some(NoLength)
    case Some(len) =>
      if len != n then Some(LengthMismatch)
      else if e.Other? then Some(UnsupportedElement)
      else None
  }

  /** Every element is visited once, in order, and an array-like element is
      converted where it stands: the list either passes every check or fails
      with the first element that does not. */
  function NormaliseEach<T(==)>(list: seq<Elem<T>>, n: nat): (r: Result<seq<Elem<T>>>)
    ensures r.Ok? <==> forall i :: 0 <= i < |list| ==> Fault(list[i], n).None?
    ensures r.Ok? ==> r.value == ConvertAll(list)
    ensures r.Err? ==> exists j :: 0 <= j < |list| && Fault(list[j], n) == Some(r.error) &&
                                   forall i :: 0 <= i < j ==> Fault(list[i], n).None?
  {
    if |list| == 0 then Ok([])
    else
      match Fault(list[0], n)
      case Some(e) => Err(e)
      case None =>
        match NormaliseEach(list[1..], n)
        case Err(e) =>
          assert exists j :: 0 <= j < |list[1..]| && Fault(list[1..][j], n) == Some(e) &&
                             forall i :: 0 <= i < j ==> Fault(list[1..][i], n).None?;
          var j :| 0 <= j < |list[1..]| && Fault(list[1..][j], n) == Some(e) &&
                   forall i :: 0 <= i < j ==> Fault(list[1..][i], n).None?;
          assert Fault(list[j + 1], n) == Some(e);
          assert forall i :: 0 <= i < j + 1 ==> Fault(list[i], n).None? by {
            forall i | 0 <= i < j + 1 ensures Fault(list[i], n).None? {
              if i > 0 { assert list[i] == list[1..][i - 1]; }
            }
          }
          Err(e)
        case Ok(rest) =>
          assert forall i :: 0 <= i < |list| ==> Fault(list[i], n).None? by {
            forall i | 0 <= i < |list| ensures Fault(list[i], n).None? {
              if i > 0 { assert list[i] == list[1..][i - 1]; }
            }
          }
          Ok([Converted(list[0])] + rest)
  }

  /** The list branch of `eq_multiple` with the loop as intended. */
  function EqListIntended<T(==)>(elems: seq<Elem<T>>, na: string): (r: Result<seq<bool>>)
    ensures |elems| == 0 ==> r == Err(EmptyInput)
    ensures r.Ok? ==> && |elems| > 0 && ParsePolicy(na).Some?
                      && (forall i :: 0 <= i < |elems| ==> !elems[i].Other? && |elems[i].cells| == |r.value|)
                      && r.value == Compare(ParsePolicy(na).value, Columns(elems), |r.value|)
    ensures |elems| > 0 && Length(elems[0]).Some? && ParsePolicy(na).Some? ==>
              (r.Ok? <==> forall i :: 0 <= i < |elems| ==> Fault(elems[i], Length(elems[0]).value).None?)
  {
    if |elems| == 0 then Err(EmptyInput)
    else
      match Length(elems[0])
      case None => Err(NoLength)
      case Some(n) =>
        match NormaliseEach(elems, n)
        case Err(e) => Err(e)
        case Ok(list) =>
          match ParsePolicy(na)
          case None => Err(UnknownPolicy)
          case Some(p) =>
            assert forall i :: 0 <= i < |elems| ==> Fault(elems[i], n).None?;
            assert Columns(list) == Columns(elems);
            Ok(Compare(p, Columns(list), n))
  }

  /** Under the intended loop, the dict of the right length placed after a
      list is refused with the TypeError the kind check promises. */
  lemma IntendedRefusesDictAfterList<T>(c: seq<Cell<T>>, na: string)
    requires ParsePolicy(na).Some?
    ensures EqListIntended([ArrayLike(c), Other(Some(|c|))], na) == Err(UnsupportedElement)
  {
    var list: seq<Elem<T>> := [ArrayLike(c), Other(Some(|c|))];
    assert Fault(list[1], |c|) == Some(UnsupportedElement);
  }

  /** Where no two non-Series elements are adjacent, the loop as written and
      the loop as intended give the same answer. */
  lemma IntendedAgreesWithoutAdjacentConversions<T>(elems: seq<Elem<T>>, n: nat, na: string)
    requires |elems| > 0
    requires forall i :: 0 <= i < |elems| ==> !elems[i].Other? && |elems[i].cells| == n
    requires forall t: nat :: FollowedBySeries(elems, t)
    requires ParsePolicy(na).Some?
    ensures EqListIntended(elems, na) == EqMultiple(List(elems), na)
  {
    EqMultipleMixed(elems, n, na);
    assert Length(elems[0]) == Some(n);
    assert forall i :: 0 <= i < |elems| ==> Fault(elems[i], n).None?;
  }

  /** `equals_multiple` on Series: true exactly when every position meets
      the policy's documented meaning. */
  lemma EqualsMultipleOnSeries<T>(cols: seq<seq<Cell<T>>>, na: string)
    requires |cols| > 0 && Rectangular(cols, |cols[0]|)
    requires ParsePolicy(na).Some?
    ensures EqualsMultiple(List(AsSeries(cols)), na) ==
              Ok(forall k :: 0 <= k < |cols[0]| ==> Expected(ParsePolicy(na).value, Row(cols, k)))
  {
    EqMultipleOnSeries(cols, na);
    CompareMeetsReference(ParsePolicy(na).value, cols, |cols[0]|);
  }
}

=== FILE: legacy.dfy ===
/** The earlier entry points kept in `pdutils/__init__.py`: `eq_series`,
    `equal_series` and `merge_non_na_values`. They do no normalisation of
    their input; the comparison and the fill loop are those of the current
    versions. */
module Legacy {
  import opened Cells
  import Eq
  import Merge

  /** `eq_series(series, na)` on a list of Series. `series[0]` raises
      IndexError on an empty list before the policy is read. Series of
      different lengths are aligned by label inside the library, which this
      model does not describe. */
  function EqSeries<T(==)>(cols: seq<seq<Cell<T>>>, na: string := "any"): (r: Result<seq<bool>>)
    ensures |cols| == 0 ==> r == Err(MissingColumn)
    ensures |cols| > 0 && Eq.ParsePolicy(na).None? ==> r == Err(UnknownPolicy)
    ensures r.Ok? ==> |cols| > 0 && |r.value| == |cols[0]|
    ensures |cols| == 1 && Eq.ParsePolicy(na).Some? ==> r == Ok(AllTrue(|cols[0]|))
  {
    if |cols| == 0 then Err(MissingColumn)
    else
      match Eq.ParsePolicy(na)
      case None => Err(UnknownPolicy)
      case Some(p) =>
        var n := |cols[0]|;
        if forall i :: 0 <= i < |cols| ==> |cols[i]| == n then
          assert Eq.Pairs(p, |cols|) == [] <== |cols| == 1;
          Ok(Eq.Compare(p, cols, n))
        else Err(OutsideModel)
  }

  /** `equal_series(series, na)`: the conjunction of `eq_series`. */
  function EqualSeries<T(==)>(cols: seq<seq<Cell<T>>>, na: string := "any"): (r: Result<bool>)
    ensures r.Ok? <==> EqSeries(cols, na).Ok?
    ensures r.Err? ==> r.error == EqSeries(cols, na).error
    ensures r.Ok? ==> (r.value <==> forall k :: 0 <= k < |EqSeries(cols, na).value| ==> EqSeries(cols, na).value[k])
  {
    match EqSeries(cols, na)
    case Err(e) => Err(e)
    case Ok(check) => Ok(forall k :: 0 <= k < |check| ==> check[k])
  }

  /** On equally long Series, `eq_series` and `eq_multiple` agree. */
  lemma EqSeriesAgreesWithEqMultiple<T>(cols: seq<seq<Cell<T>>>, na: string)
    requires |cols| > 0 && Eq.Rectangular(cols, |cols[0]|)
    ensures EqSeries(cols, na) == Eq.EqMultiple(Eq.List(Eq.AsSeries(cols)), na)
    ensures EqualSeries(cols, na) == Eq.EqualsMultiple(Eq.List(Eq.AsSeries(cols)), na)
  {
    Eq.EqMultipleOnSeries(cols, na);
  }

  /** Where the old and the current versions part: on an empty list
      `series[0]` raises IndexError where `eq_multiple` raises ValueError,
      and on a frame without columns `iloc[:, 0]` raises IndexError where
      `merge_non_na` raises ValueError. */
  lemma EmptyInputsRaiseDifferently<T>(t: Merge.Table<T>, na: string, remaining: string)
    requires |t.columns| == 0
    ensures EqSeries<T>([], na).Err? && EqSeries<T>([], na).error.Class() == IndexError
    ensures Eq.EqMultiple<T>(Eq.List([]), na).Err? && Eq.EqMultiple<T>(Eq.List([]), na).error.Class() == ValueError
    ensures MergeNonNaValues(Merge.Frame(t), remaining).Err?
    ensures MergeNonNaValues(Merge.Frame(t), remaining).error.Class() == IndexError
    ensures Merge.MergeNonNa(Merge.Frame(t), remaining).Err?
    ensures Merge.MergeNonNa(Merge.Frame(t), remaining).error.Class() == ValueError
  {
  }

  /** The input handling of `merge_non_na_values` (in this file and in
      `pdutils/merge.py`). A list goes straight to `pd.concat`, which refuses
      anything but Series with TypeError and an empty list with ValueError;
      any other non-frame object has no `columns`; a frame without columns
      has no first column. */
  function TableOf<T(==)>(data: Merge.Data<T>): (r: Result<Merge.Table<T>>)
    ensures data.List? && |data.pieces| == 0 ==> r == Err(EmptyInput)
    ensures data.List? && |data.pieces| > 0 ==>
              ((exists i :: 0 <= i < |data.pieces| && !data.pieces[i].Series?) <==> r == Err(UnsupportedElement))
    ensures data.NotAFrame? ==> r == Err(MissingAttribute)
    ensures data.Frame? ==> r == if |data.table.columns| == 0 then Err(MissingColumn) else Ok(data.table)
    ensures r.Ok? ==> |r.value.columns| > 0
  {
    match data
    case NotAFrame(_) => Err(MissingAttribute)
    case List(pieces) =>
      if |pieces| == 0 then Err(EmptyInput)
      else if exists i :: 0 <= i < |pieces| && !pieces[i].Series? then Err(UnsupportedElement)
      else Ok(Merge.Concat(Merge.ColumnsOf(pieces)))
    case Frame(t) =>
      if |t.columns| == 0 then Err(MissingColumn) else Ok(t)
  }

  /** The `match remaining_na` dispatch once the columns have run out. */
  function SettleByMatch<T(==)>(s: Merge.Stop<T>, remaining: string): (r: Result<Merge.Output<T>>)
    ensures r == Merge.Settle(s, remaining)
  {
    match s
    case Complete(v, _) => Ok(Merge.Merged(v, false))
    case Exhausted(v, _) =>
      match remaining
      case "raise" => Err(NullsRemain)
      case "warn" => Ok(Merge.Merged(v, true))
      case "ignore" => Ok(Merge.Merged(v, false))
      case _ => Err(UnknownPolicy)
  }

  /** `merge_non_na_values(data, remaining_na)` of this file. */
  function MergeNonNaValues<T(==)>(data: Merge.Data<T>, remaining: string := "raise"): (r: Result<Merge.Output<T>>)
    ensures TableOf(data).Err? ==> r == Err(TableOf(data).error)
    ensures r.Ok? ==> r.value.Merged? && r.value.values == Merge.Coalesce(TableOf(data).value)
    ensures TableOf(data).Ok? && Merge.HasNull(Merge.Coalesce(TableOf(data).value)) ==>
              (r.Ok? <==> remaining == "warn" || remaining == "ignore") &&
              (r.Ok? ==> (r.value.warned <==> remaining == "warn"))
    ensures TableOf(data).Ok? && !Merge.HasNull(Merge.Coalesce(TableOf(data).value)) ==>
              r == Ok(Merge.Merged(Merge.Coalesce(TableOf(data).value), false))
  {
    match TableOf(data)
    case Err(e) => Err(e)
    case Ok(t) => SettleByMatch(Merge.Run(t), remaining)
  }

  /** On a non-empty list of Series, or a frame with at least one column,
      the old and the current merge give the same result. */
  lemma MergeNonNaValuesAgreesWithMergeNonNa<T>(data: Merge.Data<T>, remaining: string)
    requires data.List? ==> |data.pieces| > 0 && forall i :: 0 <= i < |data.pieces| ==> data.pieces[i].Series?
    requires data.Frame? ==> |data.table.columns| > 0
    requires !data.NotAFrame?
    ensures MergeNonNaValues(data, remaining) == Merge.MergeNonNa(data, remaining)
  {
  }
}

=== FILE: legacy_merge.dfy ===
/** The second copy of `merge_non_na_values`, in `pdutils/merge.py`: the same
    input handling and fill loop, with an if/elif dispatch on the
    remaining-null policy. */
module LegacyMerge {
  import opened Cells
  import Merge
  import Legacy

  /** `merge_non_na_values(data, remaining_na)` of `pdutils/merge.py`. */
  function MergeNonNaValues<T(==)>(data: Merge.Data<T>, remaining: string := "raise"): (r: Result<Merge.Output<T>>)
    ensures Legacy.TableOf(data).Err? ==> r == Err(Legacy.TableOf(data).error)
    ensures r.Ok? ==> r.value.Merged? && r.value.values == Merge.Coalesce(Legacy.TableOf(data).value)
    ensures Legacy.TableOf(data).Ok? ==>
              var t := Legacy.TableOf(data).value;
              && (!Merge.HasNull(Merge.Coalesce(t)) ==> r == Ok(Merge.Merged(Merge.Coalesce(t), false)))
              && (Merge.HasNull(Merge.Coalesce(t)) && remaining == "raise" ==> r == Err(NullsRemain))
              && (Merge.HasNull(Merge.Coalesce(t)) && remaining == "warn" ==> r == Ok(Merge.Merged(Merge.Coalesce(t), true)))
              && (Merge.HasNull(Merge.Coalesce(t)) && remaining == "ignore" ==> r == Ok(Merge.Merged(Merge.Coalesce(t), false)))
              && (Merge.HasNull(Merge.Coalesce(t)) && remaining !in {"raise", "warn", "ignore"} ==> r == Err(UnknownPolicy))
  {
    match Legacy.TableOf(data)
    case Err(e) => Err(e)
    case Ok(t) => Merge.Settle(Merge.Run(t), remaining)
  }

  /** Both copies of `merge_non_na_values` give the same result on every
      input. */
  lemma SameAsInitVersion<T>(data: Merge.Data<T>, remaining: string)
    ensures MergeNonNaValues(data, remaining) == Legacy.MergeNonNaValues(data, remaining)
  {
  }

  /** On a non-empty list of Series, or a frame with at least one column,
      this copy agrees with the current `merge_non_na`. */
  lemma AgreesWithMergeNonNa<T>(data: Merge.Data<T>, remaining: string)
    requires data.List? ==> |data.pieces| > 0 && forall i :: 0 <= i < |data.pieces| ==> data.pieces[i].Series?
    requires data.Frame? ==> |data.table.columns| > 0
    requires !data.NotAFrame?
    ensures MergeNonNaValues(data, remaining) == Merge.MergeNonNa(data, remaining)
  {
  }
}

=== FILE: merge.dfy ===
/** Left-to-right coalescing of columns (`merge_non_na`): the inputs are
    aligned on the union of their labels, the first column is taken as the
    result, and each further column fills only the positions that are still
    missing, until nothing is missing or the columns run out. */
module Merge {
  import opened Cells

  /** A row label: an integer position or a name. */
  datatype Label = Pos(i: int) | Name(s: string)

  /** A labelled column. A label the column does not carry reads as missing. */
  type Column<T> = map<Label, Cell<T>>

  /** One element of the input list. */
  datatype Piece<T> =
    | Series(entries: Column<T>)
    | ArrayLike(cells: seq<Cell<T>>)   // an ndarray, list or tuple: labelled 0 .. len-1
    | Dict(entries: Column<T>)

  /** A DataFrame: its row labels and its columns, in order. */
  datatype Table<T> = Table(keys: set<Label>, columns: seq<Column<T>>)

  /** What a caller may pass as `data`. */
  datatype Data<T> =
    | List(pieces: seq<Piece<T>>)
    | Frame(table: Table<T>)
    | NotAFrame(size: Option<nat>)     // any other object; `size` is its len(), if it has one

  /** A merged column, with `warned` set when a UserWarning was issued; or
      the boolean column returned for input that is neither a list nor a
      DataFrame. */
  datatype Output<T> = Merged(values: Column<T>, warned: bool) | Flags(flags: seq<bool>)

  /** The cell of label `k` once the column is aligned to a wider set of
      labels: a label the column does not carry reads as missing. */
  function At<T(==)>(c: Column<T>, k: Label): (r: Cell<T>)
    ensures k in c ==> r == c[k]
    ensures k !in c ==> r.Null?
  {
    if k in c then c[k] else Null
  }

  /** `pd.Series(elem)`: a Series or dict keeps its labels, anything else is
      labelled by position. */
  function ToColumn<T(==)>(p: Piece<T>): (c: Column<T>)
    ensures !p.ArrayLike? ==> c == p.entries
    ensures p.ArrayLike? ==> forall k :: k in c <==> k.Pos? && 0 <= k.i < |p.cells|
    ensures p.ArrayLike? ==> forall i :: 0 <= i < |p.cells| ==> At(c, Pos(i)) == p.cells[i]
  {
    match p
    case Series(m) => m
    case Dict(m) => m
    case ArrayLike(cells) => map i | 0 <= i < |cells| :: Pos(i) := cells[i]
  }

  /** The union of the columns' labels. */
  function KeysOf<T(==)>(cols: seq<Column<T>>): (keys: set<Label>)
    ensures forall k :: k in keys <==> exists i :: 0 <= i < |cols| && k in cols[i]
  {
    if |cols| == 0 then {}
    else
      var rest := KeysOf(cols[1..]);
      assert forall k :: k in rest <==> exists i :: 1 <= i < |cols| && k in cols[i] by {
        forall k ensures k in rest ==> exists i :: 1 <= i < |cols| && k in cols[i] {
          if k in rest {
            var i :| 0 <= i < |cols[1..]| && k in cols[1..][i];
            assert k in cols[i + 1];
          }
        }
        forall k ensures (exists i :: 1 <= i < |cols| && k in cols[i]) ==> k in rest {
          if exists i :: 1 <= i < |cols| && k in cols[i] {
            var i :| 1 <= i < |cols| && k in cols[i];
            assert k in cols[1..][i - 1];
          }
        }
      }
      cols[0].Keys + rest
  }

  function ColumnsOf<T(==)>(pieces: seq<Piece<T>>): (cols: seq<Column<T>>)
    ensures |cols| == |pieces|
  {
    seq(|pieces|, i requires 0 <= i < |pieces| => ToColumn(pieces[i]))
  }

  /** `pd.concat(columns, axis='columns')`: the columns side by side over the
      union of their labels. */
  function Concat<T(==)>(cols: seq<Column<T>>): (t: Table<T>)
    ensures t.columns == cols
    ensures forall k :: k in t.keys <==> exists i :: 0 <= i < |cols| && k in cols[i]
  {
    Table(KeysOf(cols), cols)
  }

  // ---------------------------------------------------------------------
  // Reference definition: first non-missing value wins

  /** The value of the earliest column that has one at `k`, or missing. */
  function FirstNonNull<T(==)>(cols: seq<Column<T>>, k: Label): Cell<T> {
    if |cols| == 0 then Null
    else if At(cols[0], k).Val? then At(cols[0], k)
    else FirstNonNull(cols[1..], k)
  }

  /** The reference value is missing exactly when every column misses `k`,
      and otherwise comes from a column before which every column misses
      `k`. */
  lemma {:induction false} FirstNonNullIsFirst<T>(cols: seq<Column<T>>, k: Label)
    ensures FirstNonNull(cols, k).Null? <==> forall i :: 0 <= i < |cols| ==> At(cols[i], k).Null?
    ensures FirstNonNull(cols, k).Val? ==>
              exists i :: 0 <= i < |cols| && At(cols[i], k) == FirstNonNull(cols, k) &&
                          forall j :: 0 <= j < i ==> At(cols[j], k).Null?
  {
    if |cols| > 0 && At(cols[0], k).Null? {
      var r := FirstNonNull(cols[1..], k);
      FirstNonNullIsFirst(cols[1..], k);
      assert forall i :: 1 <= i < |cols| ==> cols[1..][i - 1] == cols[i];
      if r.Val? {
        var i :| 0 <= i < |cols[1..]| && At(cols[1..][i], k) == r &&
                 forall j :: 0 <= j < i ==> At(cols[1..][j], k).Null?;
        assert At(cols[i + 1], k) == r;
      }
    }
  }

  function CoalesceOver<T(==)>(keys: set<Label>, cols: seq<Column<T>>): (r: Column<T>)
    ensures r.Keys == keys
  {
    map k | k in keys :: FirstNonNull(cols, k)
  }

  /** What the merge should produce: at every label, the first value any
      column has there. */
  function Coalesce<T(==)>(t: Table<T>): (r: Column<T>)
    ensures r.Keys == t.keys
  {
    CoalesceOver(t.keys, t.columns)
  }

  predicate HasNull<T(==)>(c: Column<T>) {
    exists k :: k in c && c[k].Null?
  }

  function NullKeys<T(==)>(c: Column<T>): set<Label> {
    set k | k in c && c[k].Null?
  }

  lemma {:induction false} FirstNonNullAppend<T>(a: seq<Column<T>>, b: seq<Column<T>>, k: Label)
    ensures FirstNonNull(a + b, k) == if FirstNonNull(a, k).Val? then FirstNonNull(a, k) else FirstNonNull(b, k)
    decreases |a|
  {
    if |a| == 0 {
      assert a + b == b;
    } else {
      assert (a + b)[1..] == a[1..] + b;
      FirstNonNullAppend(a[1..], b, k);
    }
  }

  // ---------------------------------------------------------------------
  // The fill loop

  /** `result.where(~na, column)`: a missing position takes the column's
      value, a present one is never overwritten. */
  function FillStep<T(==)>(acc: Column<T>, col: Column<T>): (r: Column<T>)
    ensures r.Keys == acc.Keys
    ensures forall k :: k in acc && acc[k].Val? ==> r[k] == acc[k]
    ensures forall k :: k in acc && acc[k].Null? ==> r[k] == At(col, k)
    ensures NullKeys(r) <= NullKeys(acc)
  {
    map k | k in acc :: if acc[k].Val? then acc[k] else At(col, k)
  }

  /** Where the loop stopped: after `used` columns, either because nothing
      was missing any more or because the columns ran out. */
  datatype Stop<T> = Complete(values: Column<T>, used: nat) | Exhausted(values: Column<T>, used: nat)

  lemma CoalesceOneMore<T>(keys: set<Label>, cols: seq<Column<T>>, i: nat)
    requires i + 1 < |cols|
    ensures CoalesceOver(keys, cols[..i + 2]) == FillStep(CoalesceOver(keys, cols[..i + 1]), cols[i + 1])
  {
    forall k | k in keys
      ensures FirstNonNull(cols[..i + 2], k) ==
              (if FirstNonNull(cols[..i + 1], k).Val? then FirstNonNull(cols[..i + 1], k) else At(cols[i + 1], k))
    {
      assert cols[..i + 2] == cols[..i + 1] + [cols[i + 1]];
      FirstNonNullAppend(cols[..i + 1], [cols[i + 1]], k);
    }
  }

  lemma CompletePrefixIsFinal<T>(keys: set<Label>, cols: seq<Column<T>>, u: nat)
    requires u <= |cols|
    requires !HasNull(CoalesceOver(keys, cols[..u]))
    ensures CoalesceOver(keys, cols) == CoalesceOver(keys, cols[..u])
  {
    forall k | k in keys
      ensures FirstNonNull(cols, k) == FirstNonNull(cols[..u], k)
    {
      assert cols == cols[..u] + cols[u..];
      FirstNonNullAppend(cols[..u], cols[u..], k);
    }
  }

  /** The loop `while na.any(): ...` after `i + 1` columns have been used;
      `acc` is the partial result so far. */
  function FillFrom<T(==)>(t: Table<T>, i: nat, acc: Column<T>): (r: Stop<T>)
    requires i < |t.columns|
    requires acc == CoalesceOver(t.keys, t.columns[..i + 1])
    ensures i < r.used <= |t.columns|
    ensures r.values == CoalesceOver(t.keys, t.columns[..r.used])
    ensures forall u :: i < u < r.used ==> HasNull(CoalesceOver(t.keys, t.columns[..u]))
    ensures r.Complete? <==> !HasNull(r.values)
    ensures r.Exhausted? ==> r.used == |t.columns|
    ensures r.values == Coalesce(t)
    decreases |t.columns| - i
  {
    if !HasNull(acc) then
      CompletePrefixIsFinal(t.keys, t.columns, i + 1);
      Complete(acc, i + 1)
    else if i + 1 == |t.columns| then
      assert t.columns[..i + 1] == t.columns;
      Exhausted(acc, i + 1)
    else
      CoalesceOneMore(t.keys, t.columns, i);
      FillFrom(t, i + 1, FillStep(acc, t.columns[i + 1]))
  }

  /** The loop from its start: `result = data.iloc[:, 0]`. */
  function Run<T(==)>(t: Table<T>): (r: Stop<T>)
    requires |t.columns| > 0
    ensures 0 < r.used <= |t.columns|
    ensures r.values == Coalesce(t)
    ensures forall u :: 0 < u < r.used ==> HasNull(CoalesceOver(t.keys, t.columns[..u]))
    ensures r.Complete? <==> !HasNull(Coalesce(t))
    ensures r.Exhausted? ==> r.used == |t.columns|
  {
    var first := map k | k in t.keys :: At(t.columns[0], k);
    assert first == CoalesceOver(t.keys, t.columns[..1]) by {
      forall k | k in t.keys ensures FirstNonNull(t.columns[..1], k) == At(t.columns[0], k) {
        assert t.columns[..1][1..] == [];
      }
    }
    FillFrom(t, 0, first)
  }

  /** The `remaining_na` dispatch once the loop has stopped. The keyword is
      read only when the columns ran out with values still missing; the
      returned values are always those the loop reached. */
  function Settle<T(==)>(s: Stop<T>, remaining: string): (r: Result<Output<T>>)
    ensures r.Ok? ==> r.value.Merged? && r.value.values == s.values
    ensures s.Complete? ==> r == Ok(Merged(s.values, false))
    ensures s.Exhausted? ==> (r.Ok? <==> remaining == "warn" || remaining == "ignore")
    ensures s.Exhausted? && r.Ok? ==> (r.value.warned <==> remaining == "warn")
    ensures s.Exhausted? && r.Err? ==> r.error == if remaining == "raise" then NullsRemain else UnknownPolicy
  {
    match s
    case Complete(v, _) => Ok(Merged(v, false))
    case Exhausted(v, _) =>
      if remaining == "raise" then Err(NullsRemain)
      else if remaining == "warn" then Ok(Merged(v, true))
      else if remaining == "ignore" then Ok(Merged(v, false))
      else Err(UnknownPolicy)
  }

  /** The merge of an aligned table. The policy is consulted only when
      values are still missing after the last column. */
  function MergeTable<T(==)>(t: Table<T>, remaining: string): (r: Result<Output<T>>)
    ensures |t.columns| == 0 ==> r == Err(EmptyInput)
    ensures |t.columns| > 0 && !HasNull(Coalesce(t)) ==> r == Ok(Merged(Coalesce(t), false))
    ensures |t.columns| > 0 && HasNull(Coalesce(t)) && remaining == "raise" ==> r == Err(NullsRemain)
    ensures |t.columns| > 0 && HasNull(Coalesce(t)) && remaining == "warn" ==> r == Ok(Merged(Coalesce(t), true))
    ensures |t.columns| > 0 && HasNull(Coalesce(t)) && remaining == "ignore" ==> r == Ok(Merged(Coalesce(t), false))
    ensures |t.columns| > 0 && HasNull(Coalesce(t)) && remaining !in {"raise", "warn", "ignore"} ==> r == Err(UnknownPolicy)
  {
    if |t.columns| == 0 then Err(EmptyInput) else Settle(Run(t), remaining)
  }

  /** `merge_non_na(data, remaining_na)`. An empty list makes `pd.concat`
      raise ValueError before the explicit check on the number of columns,
      which is reached only by a DataFrame without columns. */
  function MergeNonNa<T(==)>(data: Data<T>, remaining: string := "raise"): (r: Result<Output<T>>)
    ensures data.NotAFrame? ==> r == (if data.size.None? then Err(NoLength) else Ok(Flags(AllTrue(data.size.value))))
    ensures data.List? && |data.pieces| == 0 ==> r == Err(EmptyInput)
    ensures data.List? && r.Ok? ==> r.value.Merged? && r.value.values == Coalesce(Concat(ColumnsOf(data.pieces)))
    ensures data.List? && r.Ok? ==>
              forall k :: k in r.value.values <==> exists i :: 0 <= i < |data.pieces| && k in ToColumn(data.pieces[i])
    ensures data.Frame? && r.Ok? ==> r.value.Merged? && r.value.values == Coalesce(data.table)
  {
    match data
    case NotAFrame(size) => if size.None? then Err(NoLength) else Ok(Flags(AllTrue(size.value)))
    case List(pieces) =>
      if |pieces| == 0 then Err(EmptyInput)
      else
        assert forall i :: 0 <= i < |pieces| ==> ColumnsOf(pieces)[i] == ToColumn(pieces[i]);
        MergeTable(Concat(ColumnsOf(pieces)), remaining)
    case Frame(t) => MergeTable(t, remaining)
  }

  // ---------------------------------------------------------------------
  // Properties of the merge

  /** At every label of the result, the value is the one of the earliest
      column that has a value there, and it is missing only when every
      column misses it. */
  lemma FirstNonNullWins<T>(t: Table<T>, remaining: string)
    requires MergeTable(t, remaining).Ok?
    ensures MergeTable(t, remaining).value.Merged?
    ensures var v := MergeTable(t, remaining).value.values;
      && v.Keys == t.keys
      && (forall k :: k in v ==> (v[k].Null? <==> forall i :: 0 <= i < |t.columns| ==> At(t.columns[i], k).Null?))
      && (forall k :: k in v && v[k].Val? ==>
            exists i :: 0 <= i < |t.columns| && At(t.columns[i], k) == v[k] &&
                        forall j :: 0 <= j < i ==> At(t.columns[j], k).Null?)
  {
    forall k | k in t.keys {
      FirstNonNullIsFirst(t.columns, k);
    }
  }

  /** Along the loop, a label that has a value keeps it at every later
      step, so the set of missing labels only shrinks. */
  lemma FilledPositionsPersist<T>(keys: set<Label>, cols: seq<Column<T>>, u: nat, u': nat)
    requires u <= u' <= |cols|
    ensures forall k :: k in keys && CoalesceOver(keys, cols[..u])[k].Val? ==>
              CoalesceOver(keys, cols[..u'])[k] == CoalesceOver(keys, cols[..u])[k]
    ensures NullKeys(CoalesceOver(keys, cols[..u'])) <= NullKeys(CoalesceOver(keys, cols[..u]))
  {
    forall k | k in keys
      ensures FirstNonNull(cols[..u'], k) == if FirstNonNull(cols[..u], k).Val? then FirstNonNull(cols[..u], k) else FirstNonNull(cols[u..u'], k)
    {
      assert cols[..u'] == cols[..u] + cols[u..u'];
      FirstNonNullAppend(cols[..u], cols[u..u'], k);
    }
  }

  /** Once the first columns leave nothing missing, the columns after them
      are never consulted and the remaining-null policy is never read. */
  lemma LaterColumnsNotConsulted<T>(keys: set<Label>, front: seq<Column<T>>, back: seq<Column<T>>, remaining: string)
    requires |front| > 0
    requires !HasNull(CoalesceOver(keys, front))
    ensures MergeTable(Table(keys, front + back), remaining) == Ok(Merged(CoalesceOver(keys, front), false))
  {
    assert (front + back)[..|front|] == front;
    CompletePrefixIsFinal(keys, front + back, |front|);
  }

  /** No two columns hold different values at the same label. */
  ghost predicate Agree<T>(cols: seq<Column<T>>) {
    forall i, j, k :: 0 <= i < |cols| && 0 <= j < |cols| && At(cols[i], k).Val? && At(cols[j], k).Val? ==>
      At(cols[i], k) == At(cols[j], k)
  }

  /** When the columns never disagree, the merge depends only on which
      columns take part, not on their order. */
  lemma AgreeingColumnsCommute<T>(t: Table<T>, cols': seq<Column<T>>, remaining: string)
    requires Agree(t.columns)
    requires forall c :: c in t.columns <==> c in cols'
    ensures MergeTable(t, remaining) == MergeTable(Table(t.keys, cols'), remaining)
  {
    var cols := t.columns;
    forall k | k in t.keys
      ensures FirstNonNull(cols, k) == FirstNonNull(cols', k)
    {
      FirstNonNullIsFirst(cols, k);
      FirstNonNullIsFirst(cols', k);
      var a, b := FirstNonNull(cols, k), FirstNonNull(cols', k);
      if a.Val? {
        var i :| 0 <= i < |cols| && At(cols[i], k) == a && forall j :: 0 <= j < i ==> At(cols[j], k).Null?;
        assert cols[i] in cols';
        var j :| 0 <= j < |cols'| && cols'[j] == cols[i];
        assert b.Val?;
        var j' :| 0 <= j' < |cols'| && At(cols'[j'], k) == b && forall m :: 0 <= m < j' ==> At(cols'[m], k).Null?;
        assert cols'[j'] in cols;
        var i' :| 0 <= i' < |cols| && cols[i'] == cols'[j'];
      } else {
        forall j | 0 <= j < |cols'| ensures At(cols'[j], k).Null? {
          assert cols'[j] in cols;
        }
      }
    }
    assert Coalesce(t) == Coalesce(Table(t.keys, cols'));
    assert |cols| == 0 <==> |cols'| == 0 by {
      if |cols'| > 0 {
        assert cols'[0] in cols;
      }
      if |cols| > 0 {
        assert cols[0] in cols';
      }
    }
  }

  /** The list form: `merge_non_na` of the same Series, dicts or arrays in a
      different order gives the same result when they never disagree. */
  lemma MergeNonNaOrderIndependent<T>(pieces: seq<Piece<T>>, pieces': seq<Piece<T>>, remaining: string)
    requires forall p :: p in pieces <==> p in pieces'
    requires Agree(ColumnsOf(pieces))
    ensures MergeNonNa(List(pieces), remaining) == MergeNonNa(List(pieces'), remaining)
  {
    var cols, cols' := ColumnsOf(pieces), ColumnsOf(pieces');
    forall c ensures c in cols <==> c in cols' {
      if c in cols {
        var i :| 0 <= i < |cols| && cols[i] == c;
        assert pieces[i] in pieces';
        var j :| 0 <= j < |pieces'| && pieces'[j] == pieces[i];
        assert cols'[j] == c;
      }
      if c in cols' {
        var j :| 0 <= j < |cols'| && cols'[j] == c;
        assert pieces'[j] in pieces;
        var i :| 0 <= i < |pieces| && pieces[i] == pieces'[j];
        assert cols[i] == c;
      }
    }
    assert Concat(cols).keys == Concat(cols').keys by {
      forall k ensures k in Concat(cols).keys ==> k in Concat(cols').keys {
        if k in Concat(cols).keys {
          var i :| 0 <= i < |cols| && k in cols[i];
          assert cols[i] in cols';
        }
      }
      forall k ensures k in Concat(cols').keys ==> k in Concat(cols).keys {
        if k in Concat(cols').keys {
          var j :| 0 <= j < |cols'| && k in cols'[j];
          assert cols'[j] in cols;
        }
      }
    }
    AgreeingColumnsCommute(Concat(cols), cols', remaining);
  }

  /** A single Series comes back as it is, unless it has missing values:
      then the remaining-null policy applies to it as to any last column. */
  lemma SingleSeries<T>(m: Column<T>, remaining: string)
    ensures var r := MergeNonNa(List([Series(m)]), remaining);
      if !HasNull(m) || remaining == "ignore" then r == Ok(Merged(m, false))
      else if remaining == "warn" then r == Ok(Merged(m, true))
      else if remaining == "raise" then r == Err(NullsRemain)
      else r == Err(UnknownPolicy)
  {
    var t := Concat(ColumnsOf([Series(m)]));
    assert t.keys == m.Keys;
    forall k | k in m ensures FirstNonNull(t.columns, k) == m[k] {
      assert t.columns[1..] == [];
    }
    assert Coalesce(t) == m;
  }

  /** Without a keyword the policy is 'raise': a frame whose columns leave a
      value missing raises ValueError. */
  lemma DefaultPolicyRaises<T>(t: Table<T>)
    requires |t.columns| > 0 && HasNull(Coalesce(t))
    ensures MergeNonNa(Frame(t)) == Err(NullsRemain)
  {
  }
}
